=== FILE: README.md ===
# Synthetic-image dataset tool: annotation store, image pipeline, project registry

This project models three parts of a desktop tool that generates synthetic
images, sends them through manual quality checking and labeling, and collects
them into an attribute-labelled dataset.

- **Annotation store** (`DatasetManager`, module `Dataset`). The store holds one
  annotation record:
  - a list of image names and a list of attribute names;
  - an integer label matrix with one row per image and one column per attribute;
  - partition and weight lists that no operation touches.

  Every successful mutation saves the record to its pickle file. The model keeps
  the in-memory record and the saved record side by side (`Store`). A call
  either completes (`Done`) or raises (`Raised`). Both outcomes carry the store
  as the call leaves it, because an exception does not undo an edit already made
  in memory. Module `DatasetProps` relates calls to each other: inverse pairs,
  the store invariant over any sequence of calls, and re-opening what was saved.
- **Image pipeline** (`file_utils`, module `Pipeline`).
  - Every image file sits in one stage directory: generated, checking, labeling,
    discarded, or the dataset directory.
  - Each discard appends a `name<TAB>reason` line to a text tracker.
  - Directories are modelled as sets of names. The tracker is its sequence of
    lines.
  - A batch move stops at the first file that is not there (FileNotFoundError).
    The moves before it stay done, and a discard has already written the
    missing file's tracker line.
- **Project registry** (`ProjectManagementScreen`, module `Projects`). This is
  the list of projects with their names, folders and active flags. The model
  tracks the project active when the screen was opened and the one active now,
  and decides when `project_changed` is emitted.

`Seqs` holds the sequence helpers the three share.

Inputs the model takes as parameters:

| Input | Parameter |
|---|---|
| File existence for `fetch_image` | the predicate `onDisk` |
| Directory listings (`os.listdir`, `glob`) | a `listing` sequence that lists the directory's set |
| The time stamp of `ensure_unique_id_generation` | the string `uid` |
| Dialog answers | booleans and strings |
| The pickle file's state | `PickleFile` |
| The contents of `projects.json` | a sequence of `Stored` records |

## Model

| member | source | states |
|---|---|---|
| Dataset.Load | backend/annotation_manager/dataset_utils.py:21-87 | A missing file gives a fresh, saved, empty record: no names, no labels, empty partition, label_idx and weight lists, and every non-empty argument used, with "New Dataset" / "" for absent or empty ones. An unreadable file raises RuntimeError. An existing record keeps its names, labels, partition, label_idx and weights. Each argument that is not None replaces its field and the others keep the file's values. The record is re-saved exactly when some argument was given, and is otherwise returned unchanged. |
| Dataset.AddLabel | backend/annotation_manager/dataset_utils.py:121-153 | A duplicate name raises ValueError and changes nothing. Otherwise the name is appended, the index of the new column is returned, each row keeps its values and gains `default` as its last column, and the record is saved. |
| Dataset.EditLabel | backend/annotation_manager/dataset_utils.py:155-174 | A bad index raises RuntimeError wrapping IndexError and changes nothing. Otherwise only that attribute name changes; the matrix stays the same. |
| Dataset.RemoveLabel | backend/annotation_manager/dataset_utils.py:176-203 | A bad index raises IndexError and changes nothing. Under the store invariant the name and column `i` both go, the columns after `i` shift left, and the record is saved. A raise never saves. |
| Dataset.FetchImage | backend/annotation_manager/dataset_utils.py:205-236 | A non-int index raises TypeError and an out-of-range one raises IndexError. Without the root the name is returned. With the root, the joined path is returned exactly when it exists; otherwise FileNotFoundError names that path. |
| DatasetProps.FetchAllAgreesWithFetchImage | backend/annotation_manager/dataset_utils.py:205-254 | Entry `k` of `fetch_all_images` is what `fetch_image(k)` returns when it succeeds. Without the root `fetch_image` always succeeds. With the root it fails exactly with FileNotFoundError on that same entry, when the entry is not on disk. |
| Dataset.Join | backend/annotation_manager/dataset_utils.py:230 | POSIX `os.path.join` of two parts: an absolute second part wins, an empty first part gives the second, a first part ending in `/` is followed directly by the second, and any other first part gets one `/` between them. |
| Dataset.AddImage | backend/annotation_manager/dataset_utils.py:256-293 | A row of the wrong length raises ValueError and changes nothing. Otherwise the name and its row (zeros when omitted) are appended and the invariant is kept. |
| Dataset.RemoveImage | backend/annotation_manager/dataset_utils.py:295-320 | A bad index raises RuntimeError wrapping IndexError. Otherwise the name and its row go, the partition lists stay as they were, and the record is saved. |
| Dataset.GetLabelsForImage | backend/annotation_manager/dataset_utils.py:322-338 | A bad index raises IndexError. Otherwise the result is the image's row, one value per attribute. |
| Dataset.RemoveLabelFromImage | backend/annotation_manager/dataset_utils.py:340-355 | Row `i` becomes all zeros and every other row and name is kept. A bad index raises IndexError and changes nothing. |
| Dataset.EditLabelForImage | backend/annotation_manager/dataset_utils.py:357-378 | The index is checked first (IndexError), then the length (ValueError), and a raise changes nothing. Otherwise row `i` becomes `v` and every other row is kept. |
| DatasetProps.ReplayKeepsInvariant | backend/annotation_manager/dataset_utils.py:121-378 | Any sequence of calls, completed or raised, keeps one row per image and one column per attribute. It never changes the description, root, reorder, label_idx, partition or weights. |
| DatasetProps.AfterKeepsInvariant | backend/annotation_manager/dataset_utils.py:121-378 | A single call keeps the invariant and the untouched fields. |
| DatasetProps.AddLabelThenRemove | backend/annotation_manager/dataset_utils.py:121-203 | Removing the attribute just added restores the record exactly. |
| DatasetProps.AddImageThenRemove | backend/annotation_manager/dataset_utils.py:256-320 | Removing the image just added restores the record exactly. |
| DatasetProps.EditLabelUndo | backend/annotation_manager/dataset_utils.py:155-174 | Renaming an attribute back to its old name restores the record. |
| DatasetProps.EditLabelForImageWithOwnRow | backend/annotation_manager/dataset_utils.py:322-378 | Writing back the row that `get_labels_for_image` returned leaves the record unchanged. |
| DatasetProps.ReopenGivesSaved | backend/annotation_manager/dataset_utils.py:21-105 | After any call that completes, opening the saved file again with no arguments gives back exactly the store the call left, and writes nothing. |
| DatasetProps.RemoveLabelFromImageTwice | backend/annotation_manager/dataset_utils.py:340-355 | Clearing an image's row twice is the same as clearing it once. |
| DatasetProps.Scenario | backend/annotation_manager/dataset_utils.py:121-378 | Worked example: attributes A and B, one image with the default row, the row edited to [1, 0], then A removed. This leaves attribute B and the row [0]. |
| DatasetProps.RemoveFirstOfTwo | backend/annotation_manager/dataset_utils.py:295-320 | Removing the first of two images leaves the second with its row. The partition lists are not re-indexed. |
| DatasetProps.RemoveImageLeavesStaleIndex | backend/annotation_manager/dataset_utils.py:306-316 | With two images and `train == [1]`, removing image 0 leaves `train == [1]` while only one image remains, so the index is stale. |
| DatasetProps.AddImageLeavesPartition | backend/annotation_manager/dataset_utils.py:279-293 | Adding an image leaves every partition list as it was. |
| DatasetProps.EditLabelAllowsDuplicate | backend/annotation_manager/dataset_utils.py:155-174 | `edit_label` accepts a name already in use, so the attribute list can hold it twice. |
| Pipeline.FirstField | backend/file_utils.py:197 | `split('\t')[0]` is the longest tab-free prefix of the line. |
| Pipeline.FirstFieldOfLine | backend/file_utils.py:53-54 | The first field of a tracker line is the file name it was written for, whatever the reason. |
| Pipeline.DropNamed | backend/file_utils.py:196-197 | The kept tracker lines are exactly those whose first field is not one of the names. |
| Pipeline.DropNamedAppend | backend/file_utils.py:196-201 | Filtering the tracker distributes over concatenation, so line order is kept. |
| Pipeline.DropNamedTwice | backend/file_utils.py:288-294 | Filtering the tracker twice by the same names is filtering it once. |
| Pipeline.MoveOneSpec | backend/file_utils.py:49-71 | One file leaves the source stage and enters the destination exactly when it is present. A discard writes its tracker line before the move, even when the move then fails. |
| Pipeline.MoveEachEffect | backend/file_utils.py:73-138 | A batch of distinct, present names completes. Those names leave the source and enter the destination, no other stage changes, and a discard appends one `name<TAB>reason` line per name, in input order. |
| Pipeline.MoveEachNeedsPresent | backend/file_utils.py:73-138 | A batch completes only if its names are distinct and all present in the source stage. A repeated or absent name raises FileNotFoundError. |
| Pipeline.MoveEachTracker | backend/file_utils.py:59-71 | Whatever the outcome, a plain move leaves the tracker alone and a discard only appends to it. |
| Pipeline.MoveEachSpec | backend/file_utils.py:73-138 | A batch completes exactly when its names are distinct and all in the source stage. It then moves them to the destination, leaves every other stage alone and appends the lines for them. A failed discard batch only appends to the tracker. |
| Pipeline.MoveEachMissing | backend/file_utils.py:73-138 | A batch that raises FileNotFoundError names the first file that is absent or repeated. Every name before it was moved, the other stages are as they were, and a discard has written the lines up to and including that file's. |
| Pipeline.MoveGeneratedDiscard | backend/file_utils.py:73-88 | Completes exactly when the names are distinct and all generated files. It then moves them to discarded, one `name<TAB>reason` line each in input order, and no other stage changes. When a name is absent or repeated, it raises at the first such name, with the names before it moved. |
| Pipeline.MoveCheckingDiscard | backend/file_utils.py:90-105 | Completes exactly when the names are distinct and all checking files. It then moves them to discarded, one `name<TAB>reason` line each in input order, and no other stage changes. When a name is absent or repeated, it raises at the first such name, with the names before it moved. |
| Pipeline.MoveLabelingDiscard | backend/file_utils.py:107-122 | Completes exactly when the names are distinct and all labeling files. It then moves them to discarded, one `name<TAB>reason` line each in input order, and no other stage changes. When a name is absent or repeated, it raises at the first such name, with the names before it moved. |
| Pipeline.MoveGeneratedChecking | backend/file_utils.py:124-138 | Completes exactly when the names are distinct and all generated files. It then moves them to checking, with the tracker untouched, and no other stage changes. When a name is absent or repeated, it raises at the first such name, with the names before it moved. |
| Pipeline.MoveGeneratedLabeling | backend/file_utils.py:155-169 | Completes exactly when the names are distinct and all generated files. It then moves them to labeling, with the tracker untouched, and no other stage changes. When a name is absent or repeated, it raises at the first such name, with the names before it moved. |
| Pipeline.MoveCheckingLabeling | backend/file_utils.py:203-217 | Completes exactly when the names are distinct and all checking files. It then moves them to labeling, with the tracker untouched, and no other stage changes. When a name is absent or repeated, it raises at the first such name, with the names before it moved. |
| Pipeline.MoveLabelingDataset | backend/file_utils.py:296-315 | Completes exactly when the names are distinct and all labeling files. It then moves them to the dataset directory with POSIX `os.rename`, replacing any file of the same name there, with the tracker untouched, and no other stage changes. When a name is absent or repeated, it raises at the first such name, with the names before it moved. |
| Pipeline.LoneNameIsList | backend/file_utils.py:85 | Every `move_*` function treats a lone string as a one-name list. |
| Pipeline.DefaultReasons | backend/file_utils.py:73-122 | The default reasons are "Automatic checking" for generated files and "Manual decision" for checking and labeling files. |
| Pipeline.MoveAllGeneratedChecking | backend/file_utils.py:140-142 | Every generated file moves to checking, no other stage changes, and the tracker is untouched. |
| Pipeline.MoveAllGeneratedLabeling | backend/file_utils.py:171-173 | Every generated file moves to labeling, no other stage changes, and the tracker is untouched. |
| Pipeline.MoveDiscardedLabeling | backend/file_utils.py:175-201 | The batch completes exactly when its names are distinct and all discarded. It then moves them to labeling, leaves the other stages alone, and drops exactly the tracker lines naming them. When the batch fails the tracker is not rewritten. |
| Pipeline.DiscardThenRestore | backend/file_utils.py:73-201 | Discarding a generated file and taking it back for labeling drops only its own tracker line and keeps the others in order. |
| Pipeline.DeleteSingleDiscarded | backend/file_utils.py:265-294 | The file goes from the discarded directory if it is there, with no error if it is not. Exactly the tracker lines naming it go, the others stay in order with their repeats, and no other stage changes. |
| Pipeline.DeleteSingleDiscardedTwice | backend/file_utils.py:265-294 | Deleting the same discarded file twice is the same as deleting it once. |
| Pipeline.DeleteAllDiscarded | backend/file_utils.py:219-235 | The discarded directory keeps exactly its dot-files, the tracker is emptied, and no other stage changes. |
| Pipeline.DeleteAllDiscardedTwice | backend/file_utils.py:219-235 | Clearing the discarded directory twice is the same as clearing it once: the dot-files that stay are never matched and the tracker is already empty. |
| Pipeline.DiscardAllChecking | backend/file_utils.py:238-250 | The checking directory keeps exactly its dot-files, every visible checking file is discarded with one tracker line each in listing order, and no other stage changes. |
| Pipeline.AcceptAllChecking | backend/file_utils.py:252-263 | The checking directory keeps exactly its dot-files, every visible checking file moves to labeling, no other stage changes, and the tracker is untouched. |
| Pipeline.SplitExt | backend/file_utils.py:150 | `os.path.splitext` on a file name: stem + extension is the name. The extension starts at the last dot, holds no other dot, and is empty when only dots precede that dot. |
| Pipeline.SplitStamped | backend/file_utils.py:150-151 | A stamped name splits back into the stamped stem and the original extension. |
| Pipeline.StampedInjective | backend/file_utils.py:150-151 | Distinct names stay distinct once stamped. |
| Pipeline.RenameEachGeneral | backend/file_utils.py:148-153 | Renaming distinct present files whose stamped names are all free leaves the other files and adds exactly the stamped names, one per renamed file. |
| Pipeline.EnsureUniqueIdGeneration | backend/file_utils.py:144-153 | Only the generated directory changes; the other stages and the tracker stay as they were. |
| Pipeline.UniqueIdKeepsCount | backend/file_utils.py:144-153 | When no stamped name is already taken, every generated file is renamed to its stamped name and the count is kept. |
| Pipeline.StampCollisionLosesFile | backend/file_utils.py:144-153 | When a stamped name already exists, POSIX `os.rename` overwrites it: `a.png` and `a_7.png` stamped with `7` leave one file. |
| Projects.SearchForbidden | frontend/project_management.py:242-243 | The search finds a match exactly when some character of the name is one of `/ : * ? " < > \|`. |
| Projects.IsValidName | frontend/project_management.py:240-243 | A name is valid exactly when none of its characters is forbidden. |
| Projects.BackslashAllowed | frontend/project_management.py:242 | A backslash is allowed and a slash is not. |
| Projects.ProjectPath | frontend/project_management.py:231 | A project's folder is `projects/` followed by its name. |
| Projects.FirstActive | frontend/project_management.py:57-60 | The position of the first active record, or none when no record is active. |
| Projects.LoadProjects | frontend/project_management.py:45-61 | The loaded records keep their stored fields. The current and initial projects are both the first active record, or none. |
| Projects.LoadedWellFormed | frontend/project_management.py:45-61 | Records with distinct names and at most one active give a well-formed registry. |
| Projects.SetActiveProject | frontend/project_management.py:204-212 | The chosen project becomes the only active one and the current one, and nothing else changes. |
| Projects.SetActiveKeeps | frontend/project_management.py:204-212 | Activating a project keeps the registry well formed. |
| Projects.AddNewProject | frontend/project_management.py:219-238 | A cancelled or empty name, an invalid name and a used name are each rejected. Otherwise one inactive record with path `projects/<name>` is appended and nothing else changes. |
| Projects.AddNewProjectKeeps | frontend/project_management.py:219-238 | Adding keeps names and ids distinct and at most one project active. |
| Projects.EditProjectName | frontend/project_management.py:245-268 | A rename is rejected for a cancelled, empty or invalid name, or for any name already in use, including the project's own. Otherwise only that project's name and path change. |
| Projects.EditProjectNameKeeps | frontend/project_management.py:245-268 | Renaming keeps the registry well formed. |
| Projects.WithoutName | frontend/project_management.py:287 | The filtered list holds exactly the projects whose name differs. |
| Projects.WithoutNameAppend | frontend/project_management.py:287 | Filtering distributes over concatenation, so the survivors keep their order. |
| Projects.WithoutNameUniqueNames | frontend/project_management.py:287 | Filtering keeps names distinct. |
| Projects.WithoutNameUniqueIds | frontend/project_management.py:287 | Filtering keeps ids distinct. |
| Projects.WithoutNameOneActive | frontend/project_management.py:287 | Filtering keeps at most one project active. |
| Projects.DeleteProject | frontend/project_management.py:279-299 | Once confirmed, every project with that name goes. When the deleted project was not active, the survivors are the others in their order and the current project is kept. When it was active and others remain, the survivors are the others in their order, with only the last one active, and it becomes the current project. |
| Projects.FilteredWellFormed | frontend/project_management.py:287 | Dropping every project with a given name keeps the registry well formed: distinct names and ids, and an active project left behind is still the current one. |
| Projects.DeleteProjectKeeps | frontend/project_management.py:279-299 | Deleting keeps the registry well formed. |
| Projects.DeleteActiveActivatesLast | frontend/project_management.py:279-299 | Deleting the active middle one of three projects leaves the first (inactive) and the third, now active and current. |
| Projects.ReturnToMain | frontend/project_management.py:308-314 | `project_changed` is emitted exactly when the current project differs from the initial one, and the current one is then recorded as initial. |
| Projects.ReturnTwiceEmitsOnce | frontend/project_management.py:308-314 | A second return with no change in between emits nothing. |
| Projects.ReturnToMainKeeps | frontend/project_management.py:308-314 | Returning keeps the registry well formed. |
| Seqs.RemoveAt | backend/annotation_manager/dataset_utils.py:192-200 | `pop(i)` / `np.delete(_, i)`: one element fewer, with the later elements shifted down by one. |
| Seqs.ListingSize | backend/file_utils.py:148 | A directory listing holds exactly as many entries as the directory. |

## Behaviours worth knowing

- `add_image` does not touch the `train` or `trainval` partitions (`DatasetProps.AddImageLeavesPartition`).
- `remove_image` leaves the partition lists as they were, so indices past the removed image become stale (`DatasetProps.RemoveImageLeavesStaleIndex`).
- A duplicate name in `add_label` raises `ValueError`, while `edit_label` accepts a name already in use (`DatasetProps.EditLabelAllowsDuplicate`).

## Left out

- I/O is not modelled: pickle and JSON encoding, logging, `print`, message boxes, and widget refreshes. Failures while saving are left out too; saving is modelled as always succeeding.
- `save_generated_image` is not modelled. It adds a file to the generated directory, and the model takes any generated set as given.
- `verify_or_create_dirs` is not modelled. It creates the stage directories and an empty tracker file. The model assumes both exist, so the FileNotFoundError that `move_discarded_labeling` and `delete_single_discarded` raise on a missing tracker file is not modelled.
- `get_all_labels`, `create_default_config`, and the folder creation, renaming and deletion of the project screen are not modelled. They only read the record or act on folders outside the stage directories.
- NumPy behaviour on records that break the store invariant is not modelled in detail. This covers broadcasting a short row, `row_stack` width errors, and a matrix whose rows differ in length. Records loaded from a pickle are assumed to be well formed where the invariant is needed. The unreachable ValueError branch of `remove_label` is modelled and shown unreachable.
- Tracker text encoding is not modelled: `strip()` of each line and names holding tabs or newlines. Tracker lines are modelled as whole strings.
- Names holding path separators are not modelled: file names are taken to be plain base names.
- The dataset destination directory is one stage, and `dataset_path` is not modelled.
- Timestamps (`last_modified`, the time-based `unique_id`) are not modelled. The time stamp is the `uid` parameter.
- Pipeline.StampCollisionLosesFile: POSIX semantics are assumed for `os.rename` and `os.path.join`. On Windows `os.rename` raises FileExistsError when the target exists. `ensure_unique_id_generation` would then stop at the colliding name and lose no file, and `move_labeling_dataset` would stop at a name already in the dataset directory. `os.path.join` would also treat backslashes and drive letters as separators and roots.
- Projects.ReturnToMain: compares the current and initial projects by identity (`id`). Python compares the dicts by value. The two comparisons agree while both records are in the live list, whose names the registry invariant keeps distinct. They can differ when the initial record has been deleted and a project with the same name is created and activated within the same second: Python finds the two dicts equal, while their ids differ.
- Pipeline.UniqueIdKeepsCount: proves the count is kept only when no stamped name is already taken. `Pipeline.StampCollisionLosesFile` shows a file lost when one is. `os.listdir` in that function also lists dot-files and subdirectories; the model takes the listing of the generated set as given.
- Projects.DeleteProject: when the active project is deleted and no project remains, `current_active_project` keeps pointing at the deleted record. The model keeps that id, and no later contract depends on it.
- Dataset.AddLabel: label values are unbounded integers. The cast of `default_value` to NumPy `int64` is not modelled: when images exist, an out-of-range value makes `np.full` raise OverflowError, which the catch-all handler turns into RuntimeError; the appended name then stays in memory unsaved. A float is truncated.
- Dataset.AddImage: label values are unbounded integers. The cast of the row to NumPy `int64` is not modelled: an out-of-range value raises OverflowError after the image name has been appended, and a float is truncated.
- Dataset.EditLabelForImage: label values are unbounded integers. The cast of the row to NumPy `int64` is not modelled: an out-of-range value raises OverflowError before the row is written, and a float is truncated.
- DatasetProps.ReplayKeepsInvariant: covers the modelled outcomes only. An `int64` overflow in `add_label` or `add_image` would leave one more name than matrix columns or rows.
- Dataset.AddLabel: states the new matrix cells only for a record that keeps the store invariant. On other records the NumPy broadcasting of `column_stack` is not modelled.
- Dataset.RemoveLabel: states the completed result only under the store invariant. The narrower-matrix ValueError branch is modelled but not described further.
- Dataset.AddImage: states the appended row only under the store invariant. The `row_stack` width error of a malformed matrix is not modelled.
- Dataset.RemoveImage: states the removed row only under the store invariant. A matrix with fewer rows than names is kept as it is.

=== FILE: dataset.dfy ===
/** The annotation dataset store (`DatasetManager`): one annotation record
    holding parallel lists of image names and attribute names and an integer
    label matrix with one row per image and one column per attribute, plus
    the pickle file it is saved to after every successful mutation. */
module Dataset {
  import Seqs
  import opened Wrappers

  type Row = seq<int>

  /** The label matrix as a sequence of rows. NumPy's `shape[0]` is the
      number of rows; `shape[1]` is the length of the first row. */
  type Matrix = seq<Row>

  datatype LabelIdx = LabelIdx(eval: seq<int>, color: seq<int>, extra: seq<int>)

  datatype Partition = Partition(train: seq<int>, val: seq<int>, test: seq<int>, trainval: seq<int>)

  datatype Annotation = Annotation(
    description: string,
    reorder: string,
    root: string,
    imageName: seq<string>,
    labels: Matrix,
    attrName: seq<string>,
    labelIdx: LabelIdx,
    partition: Partition,
    weightTrain: seq<real>,
    weightTrainval: seq<real>)

  /** The record in memory and the record last written to the pickle file. */
  datatype Store = Store(current: Annotation, saved: Annotation)

  /** The exception a call raises. `Runtime(cause)` is a `RuntimeError` that
      wraps the exception named by `cause`. */
  datatype Error =
    | IndexError
    | ValueError
    | TypeError
    | FileNotFound(path: string)
    | Corrupt
    | Runtime(cause: Error)

  /** A mutation either completes, or raises; either way the store as the
      call leaves it (an exception does not undo in-memory edits). */
  datatype Step<T> = Done(store: Store, value: T) | Raised(error: Error, store: Store)

  /** A read either returns a value or raises. */
  datatype Result<T> = Ok(value: T) | Err(error: Error)

  /** The store invariant: one row per image, one column per attribute. */
  predicate Valid(a: Annotation)
  {
    && |a.labels| == |a.imageName|
    && forall i :: 0 <= i < |a.labels| ==> |a.labels[i]| == |a.attrName|
  }

  /** The fields no operation touches after creation. */
  predicate SameMeta(a: Annotation, b: Annotation)
  {
    && a.description == b.description
    && a.reorder == b.reorder
    && a.root == b.root
    && a.labelIdx == b.labelIdx
    && a.partition == b.partition
    && a.weightTrain == b.weightTrain
    && a.weightTrainval == b.weightTrainval
  }

  /** `save_annotation()`: the new record becomes both the memory and the file. */
  function Commit(a: Annotation): (s: Store)
    ensures s.saved == s.current == a
  {
    Store(a, a)
  }

  function Zeros(n: nat): (r: Row)
    ensures |r| == n && forall k :: 0 <= k < n ==> r[k] == 0
  {
    seq(n, _ => 0)
  }

  // ---------------------------------------------------------------------
  // Opening the store

  /** What the pickle path holds when the store is opened. */
  datatype PickleFile = Missing | Unreadable | Present(content: Annotation)

  datatype Opened = Opened(store: Store, wrote: bool)

  const DefaultDescription: string := "New Dataset"

  /** The given string, unless it is absent or empty (both count as false in
      a condition), in which case the default. */
  function OrDefault(x: Option<string>, d: string): string
  {
    if x.Some? && x.value != "" then x.value else d
  }

  /** The given string whenever one is given, even an empty one; otherwise
      the old value. */
  function Overwrite(x: Option<string>, old_: string): string
  {
    if x.Some? then x.value else old_
  }

  function Fresh(description: Option<string>, reorder: Option<string>, root: Option<string>): (a: Annotation)
    ensures Valid(a) && a.imageName == [] && a.attrName == [] && a.labels == []
  {
    Annotation(
      OrDefault(description, DefaultDescription),
      OrDefault(reorder, ""),
      OrDefault(root, ""),
      [], [], [],
      LabelIdx([], [], []),
      Partition([], [], [], []),
      [], [])
  }

  /** `load_annotation`: a missing file yields a fresh record that is saved;
      an unreadable file raises RuntimeError; an existing record has the
      arguments that are not None written over it and is re-saved only when
      one was given. */
  function Load(file: PickleFile, description: Option<string>, reorder: Option<string>, root: Option<string>): (r: Result<Opened>)
    ensures file.Unreadable? <==> r.Err?
    ensures r.Err? ==> r.error == Runtime(Corrupt)
    ensures r.Ok? ==> r.value.store.saved == r.value.store.current
    ensures file.Missing? ==>
      && r.Ok? && r.value.wrote && Valid(r.value.store.current)
      && r.value.store.current.imageName == [] && r.value.store.current.attrName == []
      && r.value.store.current.labels == []
      && r.value.store.current.partition == Partition([], [], [], [])
      && r.value.store.current.labelIdx == LabelIdx([], [], [])
      && r.value.store.current.weightTrain == [] && r.value.store.current.weightTrainval == []
      && (description.None? || description == Some("") ==> r.value.store.current.description == DefaultDescription)
      && (description.Some? && description.value != "" ==> r.value.store.current.description == description.value)
      && (reorder.None? || reorder == Some("") ==> r.value.store.current.reorder == "")
      && (reorder.Some? && reorder.value != "" ==> r.value.store.current.reorder == reorder.value)
      && (root.None? || root == Some("") ==> r.value.store.current.root == "")
      && (root.Some? && root.value != "" ==> r.value.store.current.root == root.value)
    ensures file.Present? ==>
      && r.Ok?
      && (r.value.wrote <==> description.Some? || reorder.Some? || root.Some?)
      && r.value.store.current.imageName == file.content.imageName
      && r.value.store.current.attrName == file.content.attrName
      && r.value.store.current.labels == file.content.labels
      && r.value.store.current.partition == file.content.partition
      && r.value.store.current.labelIdx == file.content.labelIdx
      && r.value.store.current.weightTrain == file.content.weightTrain
      && r.value.store.current.weightTrainval == file.content.weightTrainval
      && (description.Some? ==> r.value.store.current.description == description.value)
      && (description.None? ==> r.value.store.current.description == file.content.description)
      && (reorder.Some? ==> r.value.store.current.reorder == reorder.value)
      && (reorder.None? ==> r.value.store.current.reorder == file.content.reorder)
      && (root.Some? ==> r.value.store.current.root == root.value)
      && (root.None? ==> r.value.store.current.root == file.content.root)
      && (!r.value.wrote ==> r.value.store.current == file.content)
  {
    match file
    case Missing =>
      Ok(Opened(Commit(Fresh(description, reorder, root)), true))
    case Unreadable =>
      Err(Runtime(Corrupt))
    case Present(a) =>
      var modified := description.Some? || reorder.Some? || root.Some?;
      var a' := a.(description := Overwrite(description, a.description),
                   reorder := Overwrite(reorder, a.reorder),
                   root := Overwrite(root, a.root));
      if modified then Ok(Opened(Commit(a'), true)) else Ok(Opened(Store(a, a), false))
  }

  // ---------------------------------------------------------------------
  // Attributes (label columns)

  /** The matrix with `v` appended to every row. */
  function AppendColumn(m: Matrix, v: int): (r: Matrix)
    ensures |r| == |m|
    ensures forall i :: 0 <= i < |m| ==> |r[i]| == |m[i]| + 1
    ensures forall i, k :: 0 <= i < |m| && 0 <= k < |m[i]| ==> r[i][k] == m[i][k]
    ensures forall i :: 0 <= i < |m| ==> r[i][|m[i]|] == v
  {
    seq(|m|, i requires 0 <= i < |m| => m[i] + [v])
  }

  /** The matrix with column `j` deleted from every row (`np.delete(_, j, axis=1)`). */
  function DeleteColumn(m: Matrix, j: int): (r: Matrix)
    ensures |r| == |m|
    ensures forall i :: 0 <= i < |m| ==> r[i] == Seqs.RemoveAt(m[i], j)
  {
    seq(|m|, i requires 0 <= i < |m| => Seqs.RemoveAt(m[i], j))
  }

  /** `add_label(new_label, default_value)`: a name already present raises
      ValueError before anything changes; otherwise the name is appended, every
      existing row gains `default` in the new last column, and the new column's
      index is returned. */
  function AddLabel(s: Store, name: string, default: int := 0): (r: Step<nat>)
    ensures name in s.current.attrName ==> r == Raised(ValueError, s)
    ensures name !in s.current.attrName ==>
      && r.Done?
      && r.value == |s.current.attrName|
      && r.store.saved == r.store.current
      && r.store.current.attrName == s.current.attrName + [name]
      && r.store.current.imageName == s.current.imageName
      && SameMeta(r.store.current, s.current)
    ensures Valid(s.current) && r.Done? ==>
      && Valid(r.store.current)
      && |r.store.current.labels| == |s.current.labels|
      && (forall i, k :: 0 <= i < |s.current.labels| && 0 <= k < |s.current.attrName| ==>
            r.store.current.labels[i][k] == s.current.labels[i][k])
      && (forall i :: 0 <= i < |s.current.labels| ==>
            r.store.current.labels[i][|s.current.attrName|] == default)
  {
    var a := s.current;
    if name in a.attrName then Raised(ValueError, s)
    else
      var rows := if |a.imageName| == 0 then [] else AppendColumn(a.labels, default);
      Done(Commit(a.(attrName := a.attrName + [name], labels := rows)), |a.attrName|)
  }

  /** `edit_label(i, new_label)`: renames one attribute; no duplicate check,
      no matrix change. A bad index raises an IndexError that the method
      itself wraps into RuntimeError. */
  function EditLabel(s: Store, i: int, name: string): (r: Step<()>)
    ensures !(0 <= i < |s.current.attrName|) ==> r == Raised(Runtime(IndexError), s)
    ensures 0 <= i < |s.current.attrName| ==>
      && r.Done?
      && r.store.saved == r.store.current
      && |r.store.current.attrName| == |s.current.attrName|
      && r.store.current.attrName[i] == name
      && (forall k :: 0 <= k < |s.current.attrName| && k != i ==>
            r.store.current.attrName[k] == s.current.attrName[k])
      && r.store.current.labels == s.current.labels
      && r.store.current.imageName == s.current.imageName
      && SameMeta(r.store.current, s.current)
    ensures Valid(s.current) && r.Done? ==> Valid(r.store.current)
  {
    var a := s.current;
    if 0 <= i < |a.attrName| then Done(Commit(a.(attrName := a.attrName[i := name])), ())
    else Raised(Runtime(IndexError), s)
  }

  /** `remove_label(i)`: a bad index raises IndexError and changes nothing.
      Otherwise the name is popped first; then, when the matrix is non-empty,
      a matrix narrower than `i + 1` raises ValueError (leaving the pop in
      memory, unsaved), and a wide enough one loses column `i`. Under the
      store invariant the ValueError branch is never taken. */
  function RemoveLabel(s: Store, i: int): (r: Step<()>)
    ensures !(0 <= i < |s.current.attrName|) ==> r == Raised(IndexError, s)
    ensures r.Raised? ==> r.store.saved == s.saved
    ensures r.Done? ==> r.store.saved == r.store.current
    ensures Valid(s.current) && 0 <= i < |s.current.attrName| ==>
      && r.Done?
      && Valid(r.store.current)
      && r.store.saved == r.store.current
      && r.store.current.attrName == s.current.attrName[..i] + s.current.attrName[i + 1..]
      && r.store.current.imageName == s.current.imageName
      && |r.store.current.labels| == |s.current.labels|
      && (forall n, k :: 0 <= n < |s.current.labels| && 0 <= k < i ==>
            r.store.current.labels[n][k] == s.current.labels[n][k])
      && (forall n, k :: 0 <= n < |s.current.labels| && i <= k < |s.current.attrName| - 1 ==>
            r.store.current.labels[n][k] == s.current.labels[n][k + 1])
      && SameMeta(r.store.current, s.current)
  {
    var a := s.current;
    if !(0 <= i < |a.attrName|) then Raised(IndexError, s)
    else
      var popped := a.(attrName := Seqs.RemoveAt(a.attrName, i));
      if |a.labels| > 0 && |a.labels[0]| > 0 then
        if |a.labels[0]| <= i then Raised(ValueError, Store(popped, s.saved))
        else Done(Commit(popped.(labels := DeleteColumn(a.labels, i))), ())
      else Done(Commit(popped), ())
  }

  // ---------------------------------------------------------------------
  // Images (label rows)

  /** `add_image(image_name, labels)`: an omitted row becomes a row of zeros,
      one per attribute; a row of the wrong length raises ValueError before
      anything changes; otherwise the name and the row are appended. Names are
      not de-duplicated and values are not restricted to 0 and 1. */
  function AddImage(s: Store, name: string, given: Option<Row> := None): (r: Step<()>)
    ensures given.Some? && |given.value| != |s.current.attrName| ==> r == Raised(ValueError, s)
    ensures given.None? || |given.value| == |s.current.attrName| ==>
      && r.Done?
      && r.store.saved == r.store.current
      && r.store.current.imageName == s.current.imageName + [name]
      && r.store.current.attrName == s.current.attrName
      && SameMeta(r.store.current, s.current)
    ensures Valid(s.current) && r.Done? ==>
      && Valid(r.store.current)
      && r.store.current.labels == s.current.labels + [if given.Some? then given.value else Zeros(|s.current.attrName|)]
  {
    var a := s.current;
    var row := if given.Some? then given.value else Zeros(|a.attrName|);
    if |row| != |a.attrName| then Raised(ValueError, s)
    else
      var names := a.imageName + [name];
      var rows := if |names| == 1 then [row] else a.labels + [row];
      Done(Commit(a.(imageName := names, labels := rows)), ())
  }

  /** `remove_image(i)`: removes the name and its row; a bad index raises an
      IndexError that the method wraps into RuntimeError. The partition lists
      are left exactly as they were. */
  function RemoveImage(s: Store, i: int): (r: Step<()>)
    ensures !(0 <= i < |s.current.imageName|) ==> r == Raised(Runtime(IndexError), s)
    ensures 0 <= i < |s.current.imageName| ==>
      && r.Done?
      && r.store.saved == r.store.current
      && r.store.current.imageName == s.current.imageName[..i] + s.current.imageName[i + 1..]
      && r.store.current.attrName == s.current.attrName
      && SameMeta(r.store.current, s.current)
    ensures Valid(s.current) && r.Done? ==>
      && Valid(r.store.current)
      && r.store.current.labels == s.current.labels[..i] + s.current.labels[i + 1..]
  {
    var a := s.current;
    if 0 <= i < |a.imageName| then
      var rows :=
        if |a.labels| == 1 then []
        else if |a.labels| > i then Seqs.RemoveAt(a.labels, i)
        else a.labels;
      Done(Commit(a.(imageName := Seqs.RemoveAt(a.imageName, i), labels := rows)), ())
    else Raised(Runtime(IndexError), s)
  }

  /** `get_labels_for_image(i)`: the row of image `i`. */
  function GetLabelsForImage(a: Annotation, i: int): (r: Result<Row>)
    ensures !(0 <= i < |a.imageName|) ==> r == Err(IndexError)
    ensures Valid(a) && 0 <= i < |a.imageName| ==>
      && r.Ok? && |r.value| == |a.attrName|
      && forall k :: 0 <= k < |a.attrName| ==> r.value[k] == a.labels[i][k]
  {
    if i < 0 || i >= |a.imageName| then Err(IndexError)
    else if i < |a.labels| then Ok(a.labels[i])
    else Err(IndexError)
  }

  /** `remove_label_from_image(i)`: row `i` becomes all zeros; nothing else
      changes. */
  function RemoveLabelFromImage(s: Store, i: int): (r: Step<()>)
    ensures !(0 <= i < |s.current.imageName|) ==> r == Raised(IndexError, s)
    ensures r.Raised? ==> r.store == s
    ensures r.Done? ==> r.store.saved == r.store.current
    ensures Valid(s.current) && 0 <= i < |s.current.imageName| ==>
      && r.Done?
      && Valid(r.store.current)
      && r.store.saved == r.store.current
      && r.store.current.imageName == s.current.imageName
      && r.store.current.attrName == s.current.attrName
      && |r.store.current.labels| == |s.current.labels|
      && (forall k :: 0 <= k < |s.current.attrName| ==> r.store.current.labels[i][k] == 0)
      && (forall n :: 0 <= n < |s.current.labels| && n != i ==> r.store.current.labels[n] == s.current.labels[n])
      && SameMeta(r.store.current, s.current)
  {
    var a := s.current;
    if i < 0 || i >= |a.imageName| then Raised(IndexError, s)
    else if i >= |a.labels| then Raised(IndexError, s)
    else Done(Commit(a.(labels := a.labels[i := Zeros(|a.attrName|)])), ())
  }

  /** `edit_label_for_image(i, v)`: the index is checked first (IndexError),
      then the length (ValueError); then row `i` is replaced by `v`. */
  function EditLabelForImage(s: Store, i: int, v: Row): (r: Step<()>)
    ensures !(0 <= i < |s.current.imageName|) ==> r == Raised(IndexError, s)
    ensures 0 <= i < |s.current.imageName| && |v| != |s.current.attrName| ==> r == Raised(ValueError, s)
    ensures r.Raised? ==> r.store == s
    ensures r.Done? ==> r.store.saved == r.store.current
    ensures Valid(s.current) && 0 <= i < |s.current.imageName| && |v| == |s.current.attrName| ==>
      && r.Done?
      && Valid(r.store.current)
      && r.store.saved == r.store.current
      && r.store.current.imageName == s.current.imageName
      && r.store.current.attrName == s.current.attrName
      && |r.store.current.labels| == |s.current.labels|
      && r.store.current.labels[i] == v
      && (forall n :: 0 <= n < |s.current.labels| && n != i ==> r.store.current.labels[n] == s.current.labels[n])
      && SameMeta(r.store.current, s.current)
  {
    var a := s.current;
    if i < 0 || i >= |a.imageName| then Raised(IndexError, s)
    else if |v| != |a.attrName| then Raised(ValueError, s)
    else if i >= |a.labels| then Raised(IndexError, s)
    else Done(Commit(a.(labels := a.labels[i := v])), ())
  }

  // ---------------------------------------------------------------------
  // Fetching image paths

  /** Joining a directory and a name with POSIX path rules, for two
      components. */
  function Join(a: string, b: string): (r: string)
    ensures |b| > 0 && b[0] == '/' ==> r == b
    ensures a == "" ==> r == b
    ensures !(|b| > 0 && b[0] == '/') && a != "" && a[|a| - 1] == '/' ==> r == a + b
    ensures !(|b| > 0 && b[0] == '/') && a != "" && a[|a| - 1] != '/' ==> r == a + "/" + b
    ensures |b| <= |r| && r[|r| - |b|..] == b
  {
    if |b| > 0 && b[0] == '/' then b
    else if a == "" || a[|a| - 1] == '/' then a + b
    else a + "/" + b
  }

  /** The index argument as Python passes it: an int (bools included, since
      `bool` is a subclass of `int`) or some other object. */
  datatype Arg = Int(n: int) | NonInt

  /** `fetch_image(i, include_root_path)`: a non-int index raises TypeError,
      an out-of-range one IndexError; with the root included, a path for which
      `onDisk` fails raises FileNotFoundError. `onDisk` stands for
      `os.path.exists`. */
  function FetchImage(a: Annotation, i: Arg, includeRoot: bool, onDisk: string -> bool): (r: Result<string>)
    ensures i.NonInt? ==> r == Err(TypeError)
    ensures i.Int? && !(0 <= i.n < |a.imageName|) ==> r == Err(IndexError)
    ensures i.Int? && 0 <= i.n < |a.imageName| && !includeRoot ==> r == Ok(a.imageName[i.n])
    ensures i.Int? && 0 <= i.n < |a.imageName| && includeRoot ==>
      (onDisk(Join(a.root, a.imageName[i.n])) <==> r.Ok?)
      && (r.Ok? ==> r.value == Join(a.root, a.imageName[i.n]))
      && (r.Err? ==> r.error == FileNotFound(Join(a.root, a.imageName[i.n])))
  {
    match i
    case NonInt => Err(TypeError)
    case Int(n) =>
      if n < 0 || n >= |a.imageName| then Err(IndexError)
      else
        var name := a.imageName[n];
        if includeRoot then
          var full := Join(a.root, name);
          if onDisk(full) then Ok(full) else Err(FileNotFound(full))
        else Ok(name)
  }

  /** `fetch_all_images(include_root_path)`: every image name, joined with the
      root when asked, in dataset order; the file system is not consulted. */
  function FetchAllImages(a: Annotation, includeRoot: bool): (r: seq<string>)
    ensures |r| == |a.imageName|
    ensures !includeRoot ==> r == a.imageName
    ensures includeRoot ==> forall k :: 0 <= k < |r| ==> r[k] == Join(a.root, a.imageName[k])
  {
    if includeRoot then seq(|a.imageName|, k requires 0 <= k < |a.imageName| => Join(a.root, a.imageName[k]))
    else a.imageName
  }
}

=== FILE: dataset_props.dfy ===
/** Properties that relate several calls on the annotation store: inverse
    pairs, the invariant over any sequence of calls, re-opening what was
    saved, and a worked scenario. */
module DatasetProps {
  import Seqs
  import opened Wrappers
  import opened Dataset

  /** One call a caller can make on the store. */
  datatype Call =
    | CallAddLabel(name: string, default: int)
    | CallEditLabel(index: int, name: string)
    | CallRemoveLabel(index: int)
    | CallAddImage(image: string, given: Option<Row>)
    | CallRemoveImage(index: int)
    | CallEditLabelForImage(index: int, row: Row)
    | CallRemoveLabelFromImage(index: int)

  /** The store a call leaves behind, whether it completed or raised. */
  function After(s: Store, c: Call): Store
  {
    match c
    case CallAddLabel(n, d) => AddLabel(s, n, d).store
    case CallEditLabel(i, n) => EditLabel(s, i, n).store
    case CallRemoveLabel(i) => RemoveLabel(s, i).store
    case CallAddImage(n, v) => AddImage(s, n, v).store
    case CallRemoveImage(i) => RemoveImage(s, i).store
    case CallEditLabelForImage(i, v) => EditLabelForImage(s, i, v).store
    case CallRemoveLabelFromImage(i) => RemoveLabelFromImage(s, i).store
  }

  function Replay(s: Store, calls: seq<Call>): Store
    decreases |calls|
  {
    if calls == [] then s else Replay(After(s, calls[0]), calls[1..])
  }

  /** One call, completed or raised, keeps the invariant and every field
      outside the names and the matrix. */
  lemma AfterKeepsInvariant(s: Store, c: Call)
    requires Valid(s.current)
    ensures Valid(After(s, c).current)
    ensures SameMeta(After(s, c).current, s.current)
  {
  }

  /** Any sequence of calls keeps one row per image and one column per
      attribute, and never touches the partition, label_idx or weight lists. */
  lemma {:induction false} ReplayKeepsInvariant(s: Store, calls: seq<Call>)
    requires Valid(s.current)
    ensures Valid(Replay(s, calls).current)
    ensures SameMeta(Replay(s, calls).current, s.current)
    decreases |calls|
  {
    if calls != [] {
      AfterKeepsInvariant(s, calls[0]);
      ReplayKeepsInvariant(After(s, calls[0]), calls[1..]);
    }
  }

  /** Removing the column just added restores the record. */
  lemma AddLabelThenRemove(s: Store, name: string, default: int)
    requires Valid(s.current)
    requires name !in s.current.attrName
    ensures AddLabel(s, name, default).Done?
    ensures RemoveLabel(AddLabel(s, name, default).store, |s.current.attrName|).Done?
    ensures RemoveLabel(AddLabel(s, name, default).store, |s.current.attrName|).store.current == s.current
  {
    var a := s.current;
    var n := |a.attrName|;
    var s1 := AddLabel(s, name, default).store;
    var s2 := RemoveLabel(s1, n).store;
    Seqs.RemoveAppended(a.attrName, name);
    assert s2.current.attrName == a.attrName;
    assert |s2.current.labels| == |a.labels|;
    forall i | 0 <= i < |a.labels|
      ensures s2.current.labels[i] == a.labels[i]
    {
      assert |s2.current.labels[i]| == n == |a.labels[i]|;
    }
    assert s2.current.labels == a.labels;
  }

  /** Removing the image just added restores the record. */
  lemma AddImageThenRemove(s: Store, name: string, given: Option<Row>)
    requires Valid(s.current)
    requires AddImage(s, name, given).Done?
    ensures RemoveImage(AddImage(s, name, given).store, |s.current.imageName|).Done?
    ensures RemoveImage(AddImage(s, name, given).store, |s.current.imageName|).store.current == s.current
  {
  }

  /** Renaming an attribute back to its old name restores the record. */
  lemma EditLabelUndo(s: Store, i: int, name: string)
    requires 0 <= i < |s.current.attrName|
    ensures EditLabel(EditLabel(s, i, name).store, i, s.current.attrName[i]).store.current == s.current
  {
  }

  /** Writing back the row that `get_labels_for_image` returned changes no
      label. */
  lemma EditLabelForImageWithOwnRow(s: Store, i: int)
    requires Valid(s.current)
    requires 0 <= i < |s.current.imageName|
    ensures GetLabelsForImage(s.current, i).Ok?
    ensures EditLabelForImage(s, i, GetLabelsForImage(s.current, i).value).store.current == s.current
  {
  }

  /** Whether a call completes rather than raises. */
  predicate Completes(s: Store, c: Call)
  {
    match c
    case CallAddLabel(n, d) => AddLabel(s, n, d).Done?
    case CallEditLabel(i, n) => EditLabel(s, i, n).Done?
    case CallRemoveLabel(i) => RemoveLabel(s, i).Done?
    case CallAddImage(n, v) => AddImage(s, n, v).Done?
    case CallRemoveImage(i) => RemoveImage(s, i).Done?
    case CallEditLabelForImage(i, v) => EditLabelForImage(s, i, v).Done?
    case CallRemoveLabelFromImage(i) => RemoveLabelFromImage(s, i).Done?
  }

  /** After a completed call the pickle file holds the record in memory:
      opening it again, with no arguments, gives back the same store and
      writes nothing. */
  lemma ReopenGivesSaved(s: Store, c: Call)
    requires Completes(s, c)
    ensures Load(Present(After(s, c).saved), None, None, None) == Ok(Opened(After(s, c), false))
  {
  }

  /** `fetch_all_images` agrees with `fetch_image` at every index: the same
      name or joined path, and `fetch_image` fails only for a joined path
      that is not on disk. */
  lemma FetchAllAgreesWithFetchImage(a: Annotation, includeRoot: bool, onDisk: string -> bool, k: int)
    requires 0 <= k < |a.imageName|
    ensures !includeRoot ==> FetchImage(a, Int(k), includeRoot, onDisk).Ok?
    ensures FetchImage(a, Int(k), includeRoot, onDisk).Ok? ==>
      FetchImage(a, Int(k), includeRoot, onDisk).value == FetchAllImages(a, includeRoot)[k]
    ensures FetchImage(a, Int(k), includeRoot, onDisk).Err? ==>
      && !onDisk(FetchAllImages(a, includeRoot)[k])
      && FetchImage(a, Int(k), includeRoot, onDisk).error == FileNotFound(FetchAllImages(a, includeRoot)[k])
  {
  }

  /** Clearing an image's row twice is the same as clearing it once. */
  lemma RemoveLabelFromImageTwice(s: Store, i: int)
    requires Valid(s.current)
    requires 0 <= i < |s.current.imageName|
    ensures RemoveLabelFromImage(RemoveLabelFromImage(s, i).store, i).store == RemoveLabelFromImage(s, i).store
  {
  }

  /** The worked example: two attributes, one image with default labels, an
      edited row, then the first attribute removed. */
  lemma Scenario()
    ensures
      var s0 := Load(Missing, None, None, None).value.store;
      var s1 := AddLabel(s0, "A").store;
      var s2 := AddLabel(s1, "B").store;
      var s3 := AddImage(s2, "x.jpg").store;
      var s4 := EditLabelForImage(s3, 0, [1, 0]).store;
      var s5 := RemoveLabel(s4, 0).store;
      && s3.current.labels == [[0, 0]] && s3.current.attrName == ["A", "B"]
      && s4.current.labels == [[1, 0]]
      && s5.current.attrName == ["B"] && s5.current.labels == [[0]]
  {
    var s0 := Load(Missing, None, None, None).value.store;
    assert s0.current.attrName == [] && s0.current.imageName == [] && s0.current.labels == [];
    var s1 := AddLabel(s0, "A").store;
    assert s1.current.attrName == ["A"] && s1.current.imageName == [] && s1.current.labels == [];
    var s2 := AddLabel(s1, "B").store;
    assert s2.current.attrName == ["A", "B"] && s2.current.imageName == [] && s2.current.labels == [];
    assert Zeros(2) == [0, 0];
    var s3 := AddImage(s2, "x.jpg").store;
    assert s3.current.labels == [[0, 0]];
    var s4 := EditLabelForImage(s3, 0, [1, 0]).store;
    assert s4.current.labels == [[1, 0]] && s4.current.attrName == ["A", "B"];
    var s5 := RemoveLabel(s4, 0).store;
    assert s5.current.labels[0] == [0];
  }

  /** Removing the first of two images leaves only the second, with its row,
      and the partition lists exactly as they were. */
  lemma RemoveFirstOfTwo(s: Store, x: string, y: string, u: Row, v: Row)
    requires s.current.imageName == [x, y] && s.current.labels == [u, v]
    ensures RemoveImage(s, 0).Done?
    ensures RemoveImage(s, 0).store.current.imageName == [y]
    ensures RemoveImage(s, 0).store.current.labels == [v]
    ensures RemoveImage(s, 0).store.current.partition == s.current.partition
  {
  }

  /** Removing an image does not renumber the partition lists: an index that
      pointed at the second of two images is left pointing past the end. */
  lemma RemoveImageLeavesStaleIndex(s: Store, x: string, y: string, u: Row, v: Row)
    requires s.current.imageName == [x, y] && s.current.labels == [u, v]
    requires s.current.partition.train == [1]
    ensures RemoveImage(s, 0).store.current.partition.train == [1]
    ensures |RemoveImage(s, 0).store.current.imageName| == 1
  {
  }

  /** Adding an image does not place it in any partition. */
  lemma AddImageLeavesPartition(s: Store, name: string)
    ensures AddImage(s, name).store.current.partition == s.current.partition
  {
  }

  /** `edit_label` does not reject a name that is already used: the attribute
      list can end up with the same name twice. */
  lemma EditLabelAllowsDuplicate(s: Store)
    requires s.current.attrName == ["A", "B"]
    ensures EditLabel(s, 1, "A").store.current.attrName == ["A", "A"]
  {
  }
}

=== FILE: pipeline.dfy ===
/** The image pipeline of `file_utils`: every image file sits in one stage
    directory (generated, checking, labeling, discarded, or the dataset
    directory it finally goes to), and a text tracker holds one
    `name<TAB>reason` line per discarded file. Directories are sets of file
    names; the tracker is its sequence of lines. */
module Pipeline {
  import opened Seqs

  datatype Stage = Generated | Checking | Labeling | Discarded | Dataset

  datatype Dirs = Dirs(
    generated: set<string>,
    checking: set<string>,
    labeling: set<string>,
    discarded: set<string>,
    dataset: set<string>,
    tracker: seq<string>)

  function Files(d: Dirs, s: Stage): set<string>
  {
    match s
    case Generated => d.generated
    case Checking => d.checking
    case Labeling => d.labeling
    case Discarded => d.discarded
    case Dataset => d.dataset
  }

  function WithFiles(d: Dirs, s: Stage, fs: set<string>): (r: Dirs)
    ensures Files(r, s) == fs
    ensures forall t :: t != s ==> Files(r, t) == Files(d, t)
    ensures r.tracker == d.tracker
  {
    match s
    case Generated => d.(generated := fs)
    case Checking => d.(checking := fs)
    case Labeling => d.(labeling := fs)
    case Discarded => d.(discarded := fs)
    case Dataset => d.(dataset := fs)
  }

  /** The `filenames` argument: one string or a list of strings. */
  datatype Names = One(name: string) | Many(names: seq<string>)

  /** The names a batch works on: a lone name is a one-name list. */
  function AsList(n: Names): seq<string>
  {
    match n
    case One(x) => [x]
    case Many(xs) => xs
  }

  // ---------------------------------------------------------------------
  // Tracker lines

  const DefaultAutomatic: string := "Automatic checking"
  const DefaultManual: string := "Manual decision"

  /** The line `_discard_image` appends for a file. */
  function TrackerLine(name: string, reason: string): string
  {
    name + "\t" + reason
  }

  /** The first field of a tracker line: everything before its first tab. */
  function FirstField(line: string): (r: string)
    ensures r <= line
    ensures '\t' !in r
    ensures |r| < |line| ==> line[|r|] == '\t'
  {
    if line == [] || line[0] == '\t' then [] else [line[0]] + FirstField(line[1..])
  }

  /** The first field of a tracker line is the file name it was written for,
      whatever the reason, as long as the name holds no tab. */
  lemma {:induction false} FirstFieldOfLine(name: string, reason: string)
    requires '\t' !in name
    ensures FirstField(TrackerLine(name, reason)) == name
    decreases |name|
  {
    if name != [] {
      assert TrackerLine(name, reason)[1..] == TrackerLine(name[1..], reason);
      FirstFieldOfLine(name[1..], reason);
    }
  }

  /** The tracker lines whose first field is not one of `names`, in their
      original order. */
  function DropNamed(lines: seq<string>, names: seq<string>): (r: seq<string>)
    ensures |r| <= |lines|
    ensures forall x :: x in r <==> x in lines && FirstField(x) !in names
    decreases |lines|
  {
    if lines == [] then []
    else
      assert lines == [lines[0]] + lines[1..];
      (if FirstField(lines[0]) in names then [] else [lines[0]]) + DropNamed(lines[1..], names)
  }

  /** Filtering distributes over concatenation: the kept lines of two blocks
      are the kept lines of the first followed by those of the second. */
  lemma {:induction false} DropNamedAppend(a: seq<string>, b: seq<string>, names: seq<string>)
    ensures DropNamed(a + b, names) == DropNamed(a, names) + DropNamed(b, names)
    decreases |a|
  {
    if a != [] {
      var head := if FirstField(a[0]) in names then [] else [a[0]];
      assert (a + b)[0] == a[0] && (a + b)[1..] == a[1..] + b;
      assert DropNamed(a + b, names) == head + DropNamed(a[1..] + b, names);
      assert DropNamed(a, names) == head + DropNamed(a[1..], names);
      DropNamedAppend(a[1..], b, names);
    } else {
      assert a + b == b;
    }
  }

  /** Filtering twice by the same names is filtering once. */
  lemma {:induction false} DropNamedTwice(lines: seq<string>, names: seq<string>)
    ensures DropNamed(DropNamed(lines, names), names) == DropNamed(lines, names)
    decreases |lines|
  {
    if lines != [] {
      var head := if FirstField(lines[0]) in names then [] else [lines[0]];
      DropNamedAppend(head, DropNamed(lines[1..], names), names);
      DropNamedTwice(lines[1..], names);
      assert DropNamed(head, names) == head by {
        if head != [] {
          assert head[1..] == [];
        }
      }
    }
  }

  // ---------------------------------------------------------------------
  // Moving files between stages

  /** What happens to each file: a plain move, or a discard for a reason. */
  datatype Action = MoveTo(dest: Stage) | DiscardFor(reason: string)

  function Dest(a: Action): Stage
  {
    if a.MoveTo? then a.dest else Discarded
  }

  /** A batch either completes, or stops at the first file that is not
      there with FileNotFoundError, leaving the earlier moves (and, for a
      discard, the tracker line already written for the missing file) in
      place. */
  datatype Outcome = Moved(dirs: Dirs) | Missing(name: string, dirs: Dirs)

  /** `_discard_image` / `_move_checking` / `_move_labeling` for one file. */
  function MoveOne(d: Dirs, from: Stage, act: Action, name: string): (r: Outcome)
    requires from != Dest(act)
  {
    var d1 := if act.DiscardFor? then d.(tracker := d.tracker + [TrackerLine(name, act.reason)]) else d;
    if name !in Files(d1, from) then Missing(name, d1)
    else Moved(WithFiles(WithFiles(d1, from, Files(d1, from) - {name}), Dest(act), Files(d1, Dest(act)) + {name}))
  }

  /** The loop of every `move_*` function: one file after another, in the
      order given. */
  function MoveEach(d: Dirs, from: Stage, act: Action, names: seq<string>): (r: Outcome)
    requires from != Dest(act)
    decreases |names|
  {
    if names == [] then Moved(d)
    else match MoveOne(d, from, act, names[0])
      case Missing(n, d1) => Missing(n, d1)
      case Moved(d1) => MoveEach(d1, from, act, names[1..])
  }

  /** The tracker lines a completed batch appends: one per file, in input
      order, for a discard; none otherwise. */
  function LinesFor(act: Action, names: seq<string>): (r: seq<string>)
  {
    if act.DiscardFor? then seq(|names|, i requires 0 <= i < |names| => TrackerLine(names[i], act.reason)) else []
  }

  /** One file: it leaves the source and enters the destination when it is
      in the source, and only a discard writes a tracker line. */
  lemma MoveOneSpec(d: Dirs, from: Stage, act: Action, name: string)
    requires from != Dest(act)
    ensures MoveOne(d, from, act, name).Moved? <==> name in Files(d, from)
    ensures MoveOne(d, from, act, name).Moved? ==>
      && Files(MoveOne(d, from, act, name).dirs, from) == Files(d, from) - {name}
      && Files(MoveOne(d, from, act, name).dirs, Dest(act)) == Files(d, Dest(act)) + {name}
      && (forall t :: t != from && t != Dest(act) ==> Files(MoveOne(d, from, act, name).dirs, t) == Files(d, t))
    ensures MoveOne(d, from, act, name).dirs.tracker == d.tracker + LinesFor(act, [name])
  {
  }

  /** A batch of distinct names all in the source stage completes: each
      leaves the source and enters the destination, no other stage changes,
      and the tracker gains exactly the lines of `LinesFor`, in input order. */
  lemma {:induction false} MoveEachEffect(d: Dirs, from: Stage, act: Action, names: seq<string>)
    requires from != Dest(act)
    requires Distinct(names)
    requires forall i :: 0 <= i < |names| ==> names[i] in Files(d, from)
    ensures MoveEach(d, from, act, names).Moved?
    ensures Files(MoveEach(d, from, act, names).dirs, from) == Files(d, from) - Elems(names)
    ensures Files(MoveEach(d, from, act, names).dirs, Dest(act)) == Files(d, Dest(act)) + Elems(names)
    ensures forall t :: t != from && t != Dest(act) ==> Files(MoveEach(d, from, act, names).dirs, t) == Files(d, t)
    ensures MoveEach(d, from, act, names).dirs.tracker == d.tracker + LinesFor(act, names)
    decreases |names|
  {
    if names == [] {
      assert Elems(names) == {};
    } else {
      var x := names[0];
      var rest := names[1..];
      ElemsCons(names);
      MoveOneSpec(d, from, act, x);
      var d1 := MoveOne(d, from, act, x).dirs;
      RestReady(d, d1, from, names);
      MoveEachStep(d, from, act, names);
      MoveEachEffect(d1, from, act, rest);
      var d2 := MoveEach(d1, from, act, rest).dirs;
      ComposeMoves(d, d1, d2, from, Dest(act), x, rest, Elems(names));
      LinesForCons(act, names);
      assert d2.tracker == d.tracker + LinesFor(act, [x]) + LinesFor(act, rest);
    }
  }

  /** When the first file moves, the batch goes on with the rest. */
  lemma MoveEachStep(d: Dirs, from: Stage, act: Action, names: seq<string>)
    requires from != Dest(act)
    requires names != [] && MoveOne(d, from, act, names[0]).Moved?
    ensures MoveEach(d, from, act, names) == MoveEach(MoveOne(d, from, act, names[0]).dirs, from, act, names[1..])
  {
  }

  /** Moving one name and then the rest of a batch moves the whole batch. */
  lemma ComposeMoves(d: Dirs, d1: Dirs, d2: Dirs, from: Stage, dest: Stage, x: string, rest: seq<string>, all: set<string>)
    requires all == {x} + Elems(rest)
    requires Files(d1, from) == Files(d, from) - {x} && Files(d1, dest) == Files(d, dest) + {x}
    requires forall t :: t != from && t != dest ==> Files(d1, t) == Files(d, t)
    requires Files(d2, from) == Files(d1, from) - Elems(rest) && Files(d2, dest) == Files(d1, dest) + Elems(rest)
    requires forall t :: t != from && t != dest ==> Files(d2, t) == Files(d1, t)
    ensures Files(d2, from) == Files(d, from) - all && Files(d2, dest) == Files(d, dest) + all
    ensures forall t :: t != from && t != dest ==> Files(d2, t) == Files(d, t)
  {
  }

  /** Once the first name has left the source, the rest of a ready batch is
      still distinct and present. */
  lemma RestReady(d: Dirs, d1: Dirs, from: Stage, names: seq<string>)
    requires names != [] && Distinct(names)
    requires forall i :: 0 <= i < |names| ==> names[i] in Files(d, from)
    requires Files(d1, from) == Files(d, from) - {names[0]}
    ensures Distinct(names[1..])
    ensures forall i :: 0 <= i < |names| - 1 ==> names[1..][i] in Files(d1, from)
  {
    var rest := names[1..];
    forall i | 0 <= i < |rest| ensures rest[i] in Files(d1, from) {
      assert names[i + 1] == rest[i] && names[0] != names[i + 1];
    }
    forall i, j | 0 <= i < j < |rest| ensures rest[i] != rest[j] {
      assert rest[i] == names[i + 1] && rest[j] == names[j + 1];
    }
  }

  /** The lines of a batch are those of its first name, then the rest's. */
  lemma LinesForCons(act: Action, names: seq<string>)
    requires names != []
    ensures LinesFor(act, names) == LinesFor(act, [names[0]]) + LinesFor(act, names[1..])
  {
  }

  /** A batch completes only if its names are distinct and all in the source
      stage: a repeated or absent name raises FileNotFoundError. */
  lemma {:induction false} MoveEachNeedsPresent(d: Dirs, from: Stage, act: Action, names: seq<string>)
    requires from != Dest(act)
    requires MoveEach(d, from, act, names).Moved?
    ensures Distinct(names)
    ensures forall i :: 0 <= i < |names| ==> names[i] in Files(d, from)
    decreases |names|
  {
    if names != [] {
      var x := names[0];
      var rest := names[1..];
      MoveOneSpec(d, from, act, x);
      var d1 := MoveOne(d, from, act, x).dirs;
      MoveEachNeedsPresent(d1, from, act, rest);
      forall i | 0 <= i < |names| ensures names[i] in Files(d, from) {
        if i > 0 { assert names[i] == rest[i - 1]; }
      }
      forall i, j | 0 <= i < j < |names| ensures names[i] != names[j] {
        if i == 0 {
          assert names[j] == rest[j - 1] && rest[j - 1] in Files(d1, from);
        } else {
          assert names[i] == rest[i - 1] && names[j] == rest[j - 1];
        }
      }
    }
  }

  /** Whatever the outcome, a plain move leaves the tracker as it was and a
      discard only appends to it. */
  lemma {:induction false} MoveEachTracker(d: Dirs, from: Stage, act: Action, names: seq<string>)
    requires from != Dest(act)
    ensures act.MoveTo? ==> MoveEach(d, from, act, names).dirs.tracker == d.tracker
    ensures d.tracker <= MoveEach(d, from, act, names).dirs.tracker
    decreases |names|
  {
    if names != [] {
      MoveOneSpec(d, from, act, names[0]);
      var d1 := MoveOne(d, from, act, names[0]).dirs;
      MoveEachTracker(d1, from, act, names[1..]);
    }
  }

  /** A batch can complete: its names are distinct and all in the source
      stage. */
  predicate Ready(d: Dirs, from: Stage, names: seq<string>)
  {
    Distinct(names) && forall i :: 0 <= i < |names| ==> names[i] in Files(d, from)
  }

  /** The stages after a completed batch: the names left the source and
      entered the destination, and every other stage is as it was. */
  predicate BatchMoved(d: Dirs, from: Stage, dest: Stage, names: seq<string>, d2: Dirs)
  {
    && Files(d2, from) == Files(d, from) - Elems(names)
    && Files(d2, dest) == Files(d, dest) + Elems(names)
    && forall t :: t != from && t != dest ==> Files(d2, t) == Files(d, t)
  }

  /** A batch that raised stopped at name `j`: the names before it form a
      ready batch and were moved, name `j` is the first that is absent or
      repeated, and its tracker line, for a discard, was already written. */
  predicate StoppedAt(d: Dirs, from: Stage, act: Action, names: seq<string>, r: Outcome, j: int)
  {
    && 0 <= j < |names|
    && r.Missing? && r.name == names[j]
    && Ready(d, from, names[..j]) && !Ready(d, from, names[..j + 1])
    && BatchMoved(d, from, Dest(act), names[..j], r.dirs)
    && r.dirs.tracker == d.tracker + LinesFor(act, names[..j + 1])
  }

  /** With its head present, a batch is ready exactly when its tail is ready
      once the head has left the source. */
  lemma ReadyCons(d: Dirs, d1: Dirs, from: Stage, s: seq<string>)
    requires s != [] && s[0] in Files(d, from)
    requires Files(d1, from) == Files(d, from) - {s[0]}
    ensures Ready(d, from, s) <==> Ready(d1, from, s[1..])
  {
    var t := s[1..];
    if Ready(d, from, s) {
      forall i | 0 <= i < |t| ensures t[i] in Files(d1, from) {
        assert t[i] == s[i + 1] && s[0] != s[i + 1];
      }
      forall i, j | 0 <= i < j < |t| ensures t[i] != t[j] {
        assert t[i] == s[i + 1] && t[j] == s[j + 1];
      }
    }
    if Ready(d1, from, t) {
      forall i | 0 <= i < |s| ensures s[i] in Files(d, from) {
        if i > 0 { assert s[i] == t[i - 1]; }
      }
      forall i, j | 0 <= i < j < |s| ensures s[i] != s[j] {
        assert s[j] == t[j - 1] && t[j - 1] in Files(d1, from);
        if i > 0 { assert s[i] == t[i - 1]; }
      }
    }
  }

  /** A batch that raises stops at its first absent or repeated name, with
      the moves before it done. */
  lemma {:induction false} MoveEachMissing(d: Dirs, from: Stage, act: Action, names: seq<string>)
    requires from != Dest(act)
    requires MoveEach(d, from, act, names).Missing?
    ensures exists j :: StoppedAt(d, from, act, names, MoveEach(d, from, act, names), j)
    decreases |names|
  {
    var x := names[0];
    var r := MoveEach(d, from, act, names);
    MoveOneSpec(d, from, act, x);
    var d1 := MoveOne(d, from, act, x).dirs;
    if MoveOne(d, from, act, x).Missing? {
      assert r == Missing(x, d1);
      StoppedAtHead(d, d1, from, act, names, r);
    } else {
      MoveEachStep(d, from, act, names);
      MoveEachMissing(d1, from, act, names[1..]);
      var k :| StoppedAt(d1, from, act, names[1..], r, k);
      StoppedAtCons(d, d1, from, act, names, r, k);
    }
  }

  /** A batch whose first name is absent stops there. */
  lemma StoppedAtHead(d: Dirs, d1: Dirs, from: Stage, act: Action, names: seq<string>, r: Outcome)
    requires names != [] && names[0] !in Files(d, from)
    requires forall t :: Files(d1, t) == Files(d, t)
    requires d1.tracker == d.tracker + LinesFor(act, [names[0]])
    requires r == Missing(names[0], d1)
    ensures StoppedAt(d, from, act, names, r, 0)
  {
    assert names[..0] == [] && names[..1] == [names[0]] && Elems(names[..0]) == {};
    assert !Ready(d, from, names[..1]) by { assert names[..1][0] == names[0]; }
  }

  /** A batch whose first name moved stops one place later than its rest. */
  lemma StoppedAtCons(d: Dirs, d1: Dirs, from: Stage, act: Action, names: seq<string>, r: Outcome, k: int)
    requires names != [] && names[0] in Files(d, from)
    requires Files(d1, from) == Files(d, from) - {names[0]}
    requires Files(d1, Dest(act)) == Files(d, Dest(act)) + {names[0]}
    requires forall t :: t != from && t != Dest(act) ==> Files(d1, t) == Files(d, t)
    requires d1.tracker == d.tracker + LinesFor(act, [names[0]])
    requires StoppedAt(d1, from, act, names[1..], r, k)
    ensures StoppedAt(d, from, act, names, r, k + 1)
  {
    var x, rest := names[0], names[1..];
    var pre, pre1 := names[..k + 1], names[..k + 2];
    assert pre[0] == x && pre[1..] == rest[..k];
    assert pre1[0] == x && pre1[1..] == rest[..k + 1];
    assert Ready(d, from, pre) by { ReadyCons(d, d1, from, pre); }
    assert !Ready(d, from, pre1) by { ReadyCons(d, d1, from, pre1); }
    assert BatchMoved(d, from, Dest(act), pre, r.dirs) by {
      ElemsCons(pre);
      ComposeMoves(d, d1, r.dirs, from, Dest(act), x, rest[..k], Elems(pre));
    }
    assert r.dirs.tracker == d.tracker + LinesFor(act, pre1) by {
      LinesForCons(act, pre1);
      assert r.dirs.tracker == d.tracker + LinesFor(act, [x]) + LinesFor(act, rest[..k + 1]);
    }
    assert r.name == rest[k] == names[k + 1];
  }

  /** A batch completes exactly when it is ready, and then moves its names
      and appends the lines of `LinesFor`. */
  lemma MoveEachSpec(d: Dirs, from: Stage, act: Action, names: seq<string>)
    requires from != Dest(act)
    ensures MoveEach(d, from, act, names).Moved? <==> Ready(d, from, names)
    ensures MoveEach(d, from, act, names).Moved? ==>
      && BatchMoved(d, from, Dest(act), names, MoveEach(d, from, act, names).dirs)
      && MoveEach(d, from, act, names).dirs.tracker == d.tracker + LinesFor(act, names)
    ensures act.MoveTo? ==> MoveEach(d, from, act, names).dirs.tracker == d.tracker
    ensures d.tracker <= MoveEach(d, from, act, names).dirs.tracker
    ensures MoveEach(d, from, act, names).Missing? ==>
      exists j :: StoppedAt(d, from, act, names, MoveEach(d, from, act, names), j)
  {
    MoveEachTracker(d, from, act, names);
    if MoveEach(d, from, act, names).Missing? {
      MoveEachMissing(d, from, act, names);
    }
    if Ready(d, from, names) {
      MoveEachEffect(d, from, act, names);
    }
    if MoveEach(d, from, act, names).Moved? {
      MoveEachNeedsPresent(d, from, act, names);
    }
  }

  // ---------------------------------------------------------------------
  // The operations of file_utils

  /** `move_generated_discard`: discards generated files, one tracker line
      each. A lone name counts as a one-name list; the batch stops at the
      first name that is not there, with the moves before it done. */
  function MoveGeneratedDiscard(d: Dirs, names: Names, reason: string := DefaultAutomatic): (r: Outcome)
    ensures r.Moved? <==> Ready(d, Generated, AsList(names))
    ensures r.Missing? ==> exists j :: StoppedAt(d, Generated, DiscardFor(reason), AsList(names), r, j)
    ensures r.Moved? ==> BatchMoved(d, Generated, Discarded, AsList(names), r.dirs)
    ensures r.Moved? ==> r.dirs.tracker == d.tracker + LinesFor(DiscardFor(reason), AsList(names))
    ensures d.tracker <= r.dirs.tracker
  {
    MoveEachSpec(d, Generated, DiscardFor(reason), AsList(names));
    MoveEach(d, Generated, DiscardFor(reason), AsList(names))
  }

  /** `move_checking_discard`: discards checking files, one tracker line each.
      A lone name counts as a one-name list; the batch stops at the first name
      that is not there, with the moves before it done. */
  function MoveCheckingDiscard(d: Dirs, names: Names, reason: string := DefaultManual): (r: Outcome)
    ensures r.Moved? <==> Ready(d, Checking, AsList(names))
    ensures r.Missing? ==> exists j :: StoppedAt(d, Checking, DiscardFor(reason), AsList(names), r, j)
    ensures r.Moved? ==> BatchMoved(d, Checking, Discarded, AsList(names), r.dirs)
    ensures r.Moved? ==> r.dirs.tracker == d.tracker + LinesFor(DiscardFor(reason), AsList(names))
    ensures d.tracker <= r.dirs.tracker
  {
    MoveEachSpec(d, Checking, DiscardFor(reason), AsList(names));
    MoveEach(d, Checking, DiscardFor(reason), AsList(names))
  }

  /** `move_labeling_discard`: discards labeling files, one tracker line each.
      A lone name counts as a one-name list; the batch stops at the first name
      that is not there, with the moves before it done. */
  function MoveLabelingDiscard(d: Dirs, names: Names, reason: string := DefaultManual): (r: Outcome)
    ensures r.Moved? <==> Ready(d, Labeling, AsList(names))
    ensures r.Missing? ==> exists j :: StoppedAt(d, Labeling, DiscardFor(reason), AsList(names), r, j)
    ensures r.Moved? ==> BatchMoved(d, Labeling, Discarded, AsList(names), r.dirs)
    ensures r.Moved? ==> r.dirs.tracker == d.tracker + LinesFor(DiscardFor(reason), AsList(names))
    ensures d.tracker <= r.dirs.tracker
  {
    MoveEachSpec(d, Labeling, DiscardFor(reason), AsList(names));
    MoveEach(d, Labeling, DiscardFor(reason), AsList(names))
  }

  /** `move_generated_checking`: moves generated files to checking. A lone
      name counts as a one-name list; the batch stops at the first name that
      is not there, with the moves before it done. */
  function MoveGeneratedChecking(d: Dirs, names: Names): (r: Outcome)
    ensures r.Moved? <==> Ready(d, Generated, AsList(names))
    ensures r.Missing? ==> exists j :: StoppedAt(d, Generated, MoveTo(Checking), AsList(names), r, j)
    ensures r.Moved? ==> BatchMoved(d, Generated, Checking, AsList(names), r.dirs)
    ensures r.dirs.tracker == d.tracker
  {
    MoveEachSpec(d, Generated, MoveTo(Checking), AsList(names));
    MoveEach(d, Generated, MoveTo(Checking), AsList(names))
  }

  /** `move_generated_labeling`: moves generated files to labeling. A lone
      name counts as a one-name list; the batch stops at the first name that
      is not there, with the moves before it done. */
  function MoveGeneratedLabeling(d: Dirs, names: Names): (r: Outcome)
    ensures r.Moved? <==> Ready(d, Generated, AsList(names))
    ensures r.Missing? ==> exists j :: StoppedAt(d, Generated, MoveTo(Labeling), AsList(names), r, j)
    ensures r.Moved? ==> BatchMoved(d, Generated, Labeling, AsList(names), r.dirs)
    ensures r.dirs.tracker == d.tracker
  {
    MoveEachSpec(d, Generated, MoveTo(Labeling), AsList(names));
    MoveEach(d, Generated, MoveTo(Labeling), AsList(names))
  }

  /** `move_checking_labeling`: moves checking files to labeling. A lone name
      counts as a one-name list; the batch stops at the first name that is not
      there, with the moves before it done. */
  function MoveCheckingLabeling(d: Dirs, names: Names): (r: Outcome)
    ensures r.Moved? <==> Ready(d, Checking, AsList(names))
    ensures r.Missing? ==> exists j :: StoppedAt(d, Checking, MoveTo(Labeling), AsList(names), r, j)
    ensures r.Moved? ==> BatchMoved(d, Checking, Labeling, AsList(names), r.dirs)
    ensures r.dirs.tracker == d.tracker
  {
    MoveEachSpec(d, Checking, MoveTo(Labeling), AsList(names));
    MoveEach(d, Checking, MoveTo(Labeling), AsList(names))
  }

  /** `move_labeling_dataset`: renames labeling files into the dataset
      directory. A lone name counts as a one-name list; the batch stops at the
      first name that is not there, with the moves before it done. */
  function MoveLabelingDataset(d: Dirs, names: Names): (r: Outcome)
    ensures r.Moved? <==> Ready(d, Labeling, AsList(names))
    ensures r.Missing? ==> exists j :: StoppedAt(d, Labeling, MoveTo(Dataset), AsList(names), r, j)
    ensures r.Moved? ==> BatchMoved(d, Labeling, Dataset, AsList(names), r.dirs)
    ensures r.dirs.tracker == d.tracker
  {
    MoveEachSpec(d, Labeling, MoveTo(Dataset), AsList(names));
    MoveEach(d, Labeling, MoveTo(Dataset), AsList(names))
  }

  /** `move_all_generated_images_checking`: every generated file, in the
      order the directory listing gives. */
  function MoveAllGeneratedChecking(d: Dirs, listing: seq<string>): (r: Outcome)
    requires Lists(listing, d.generated)
    ensures r.Moved? && r.dirs.generated == {} && r.dirs.checking == d.checking + d.generated
    ensures forall t :: t != Generated && t != Checking ==> Files(r.dirs, t) == Files(d, t)
    ensures r.dirs.tracker == d.tracker
  {
    MoveEachEffect(d, Generated, MoveTo(Checking), listing);
    MoveGeneratedChecking(d, Many(listing))
  }

  /** `move_all_generated_images_labeling` */
  function MoveAllGeneratedLabeling(d: Dirs, listing: seq<string>): (r: Outcome)
    requires Lists(listing, d.generated)
    ensures r.Moved? && r.dirs.generated == {} && r.dirs.labeling == d.labeling + d.generated
    ensures forall t :: t != Generated && t != Labeling ==> Files(r.dirs, t) == Files(d, t)
    ensures r.dirs.tracker == d.tracker
  {
    MoveEachEffect(d, Generated, MoveTo(Labeling), listing);
    MoveGeneratedLabeling(d, Many(listing))
  }

  /** `move_discarded_labeling`: moves the files back for labeling, then
      drops every tracker line whose first field is one of the names (the
      tracker is rewritten only when every move succeeded). */
  function MoveDiscardedLabeling(d: Dirs, names: Names): (r: Outcome)
    ensures r.Moved? <==> Ready(d, Discarded, AsList(names))
    ensures r.Moved? ==> BatchMoved(d, Discarded, Labeling, AsList(names), r.dirs)
    ensures r.Missing? ==> r.dirs.tracker == d.tracker
    ensures r.Missing? ==> exists j :: StoppedAt(d, Discarded, MoveTo(Labeling), AsList(names), r, j)
    ensures r.Moved? ==> r.dirs.tracker == DropNamed(d.tracker, AsList(names))
  {
    var list := AsList(names);
    MoveEachSpec(d, Discarded, MoveTo(Labeling), list);
    match MoveEach(d, Discarded, MoveTo(Labeling), list)
    case Missing(n, d1) => Missing(n, d1)
    case Moved(d1) => Moved(d1.(tracker := DropNamed(d1.tracker, list)))
  }

  /** `delete_single_discarded`: removes the file if it is there (no error
      otherwise) and every tracker line whose first field is the name. */
  function DeleteSingleDiscarded(d: Dirs, name: string): (r: Dirs)
    ensures r.discarded == d.discarded - {name}
    ensures forall t :: t != Discarded ==> Files(r, t) == Files(d, t)
    ensures forall x :: x in r.tracker <==> x in d.tracker && FirstField(x) != name
    ensures r.tracker == DropNamed(d.tracker, [name])
  {
    d.(discarded := d.discarded - {name}, tracker := DropNamed(d.tracker, [name]))
  }

  /** A dot-file, which `glob('*')` does not match. */
  predicate Hidden(f: string)
  {
    |f| > 0 && f[0] == '.'
  }

  /** The names a `*` pattern matches in a directory: all but the dot-files. */
  function Visible(fs: set<string>): (r: set<string>)
    ensures r <= fs
    ensures forall f :: f in fs && !Hidden(f) <==> f in r
  {
    set f | f in fs && !Hidden(f)
  }

  /** `delete_all_discarded`: removes every file `glob('*')` matches and
      truncates the tracker. */
  function DeleteAllDiscarded(d: Dirs): (r: Dirs)
    ensures Visible(r.discarded) == {}
    ensures forall f :: f in r.discarded <==> f in d.discarded && Hidden(f)
    ensures r.tracker == []
    ensures forall t :: t != Discarded ==> Files(r, t) == Files(d, t)
  {
    d.(discarded := d.discarded - Visible(d.discarded), tracker := [])
  }

  /** `discard_all_checking`: discards every visible checking file, in the
      order the glob gives, one tracker line each. */
  function DiscardAllChecking(d: Dirs, listing: seq<string>, reason: string := DefaultManual): (r: Outcome)
    requires Lists(listing, Visible(d.checking))
    ensures r.Moved?
    ensures Visible(r.dirs.checking) == {}
    ensures forall f :: f in r.dirs.checking <==> f in d.checking && Hidden(f)
    ensures r.dirs.discarded == d.discarded + Visible(d.checking)
    ensures forall t :: t != Checking && t != Discarded ==> Files(r.dirs, t) == Files(d, t)
    ensures r.dirs.tracker == d.tracker + LinesFor(DiscardFor(reason), listing)
  {
    MoveEachEffect(d, Checking, DiscardFor(reason), listing);
    MoveCheckingDiscard(d, Many(listing), reason)
  }

  /** `accept_all_checking`: moves every visible checking file to labeling. */
  function AcceptAllChecking(d: Dirs, listing: seq<string>): (r: Outcome)
    requires Lists(listing, Visible(d.checking))
    ensures r.Moved?
    ensures Visible(r.dirs.checking) == {}
    ensures forall f :: f in r.dirs.checking <==> f in d.checking && Hidden(f)
    ensures r.dirs.labeling == d.labeling + Visible(d.checking)
    ensures forall t :: t != Checking && t != Labeling ==> Files(r.dirs, t) == Files(d, t)
    ensures r.dirs.tracker == d.tracker
  {
    MoveEachEffect(d, Checking, MoveTo(Labeling), listing);
    MoveCheckingLabeling(d, Many(listing))
  }

  // ---------------------------------------------------------------------
  // Time-stamping generated files

  /** The index of the last '.' in `s`, or -1. */
  function LastDot(s: string): (k: int)
    ensures -1 <= k < |s|
    ensures k == -1 ==> forall j :: 0 <= j < |s| ==> s[j] != '.'
    ensures k >= 0 ==> s[k] == '.' && forall j :: k < j < |s| ==> s[j] != '.'
    decreases |s|
  {
    if s == [] then -1
    else if s[|s| - 1] == '.' then |s| - 1
    else LastDot(s[..|s| - 1])
  }

  /** A dot with no dot after it is the last dot. */
  lemma LastDotAt(s: string, k: int)
    requires 0 <= k < |s| && s[k] == '.'
    requires forall j :: k < j < |s| ==> s[j] != '.'
    ensures LastDot(s) == k
  {
  }

  predicate AllDots(s: string)
  {
    forall j :: 0 <= j < |s| ==> s[j] == '.'
  }

  /** `os.path.splitext` of a plain file name: the extension runs from the
      last dot, unless only dots precede that dot. */
  function SplitExt(f: string): (r: (string, string))
    ensures r.0 + r.1 == f
    ensures r.1 != [] ==> r.1[0] == '.' && !AllDots(r.0) && forall j :: 0 < j < |r.1| ==> r.1[j] != '.'
    ensures r.1 == [] ==> r.0 == f && (LastDot(f) == -1 || AllDots(f[..LastDot(f)]))
  {
    var k := LastDot(f);
    if k >= 0 && !AllDots(f[..k]) then (f[..k], f[k..]) else (f, "")
  }

  /** A file name with `_` and the stamp inserted between stem and extension. */
  function Stamped(f: string, uid: string): string
  {
    SplitExt(f).0 + "_" + uid + SplitExt(f).1
  }

  /** Splitting a stamped name gives back the stamped stem and the original
      extension, provided the stamp has no dot (it is a decimal number). */
  lemma SplitStamped(f: string, uid: string)
    requires '.' !in uid
    ensures SplitExt(Stamped(f, uid)) == (SplitExt(f).0 + "_" + uid, SplitExt(f).1)
  {
    var (stem, ext) := SplitExt(f);
    var u := "_" + uid;
    var t := stem + u + ext;
    assert t == Stamped(f, uid);
    assert forall j :: 0 <= j < |u| ==> u[j] != '.' by {
      forall j | 0 <= j < |u| ensures u[j] != '.' {
        if j > 0 { assert u[j] == uid[j - 1]; }
      }
    }
    if ext != [] {
      var k := |stem| + |u|;
      assert t[k] == '.';
      assert forall j :: k < j < |t| ==> t[j] != '.' by {
        forall j | k < j < |t| ensures t[j] != '.' {
          assert t[j] == ext[j - k];
        }
      }
      assert LastDot(t) == k;
      assert t[..k] == stem + u;
      assert (stem + u)[|stem|] == '_';
    } else {
      var k := LastDot(f);
      assert t == f + u;
      if k == -1 {
        assert forall j :: 0 <= j < |t| ==> t[j] != '.' by {
          forall j | 0 <= j < |t| ensures t[j] != '.' {
            if j >= |f| { assert t[j] == u[j - |f|]; } else { assert t[j] == f[j]; }
          }
        }
        assert LastDot(t) == -1;
        assert SplitExt(t) == (t, "");
      } else {
        assert t[k] == '.';
        assert forall j :: k < j < |t| ==> t[j] != '.' by {
          forall j | k < j < |t| ensures t[j] != '.' {
            if j >= |f| { assert t[j] == u[j - |f|]; } else { assert t[j] == f[j]; }
          }
        }
        assert LastDot(t) == k;
        assert t[..k] == f[..k];
        assert SplitExt(t) == (t, "");
      }
      assert stem + "_" + uid == t;
    }
  }

  /** Distinct names stay distinct once stamped. */
  lemma StampedInjective(f: string, g: string, uid: string)
    requires '.' !in uid
    requires Stamped(f, uid) == Stamped(g, uid)
    ensures f == g
  {
    SplitStamped(f, uid);
    SplitStamped(g, uid);
    var sf, ef := SplitExt(f).0, SplitExt(f).1;
    var sg, eg := SplitExt(g).0, SplitExt(g).1;
    assert sf + "_" + uid == sg + "_" + uid && ef == eg;
    CancelStamp(sf, sg, uid);
    assert f == sf + ef && g == sg + eg;
  }

  /** Two stems that give the same name once stamped are the same stem. */
  lemma CancelStamp(a: string, b: string, uid: string)
    requires a + "_" + uid == b + "_" + uid
    ensures a == b
  {
    assert |a| == |b|;
    assert a == (a + "_" + uid)[..|a|];
    assert b == (b + "_" + uid)[..|b|];
  }

  /** The renames of `ensure_unique_id_generation`, one after another, in
      listing order. POSIX `os.rename` replaces a file that already has the new
      name. */
  function RenameEach(fs: set<string>, listing: seq<string>, uid: string): set<string>
    decreases |listing|
  {
    if listing == [] then fs
    else RenameEach(fs - {listing[0]} + {Stamped(listing[0], uid)}, listing[1..], uid)
  }

  /** The stamped names of a listing. */
  function StampedAll(listing: seq<string>, uid: string): set<string>
    decreases |listing|
  {
    if listing == [] then {} else {Stamped(listing[0], uid)} + StampedAll(listing[1..], uid)
  }

  /** `ensure_unique_id_generation(config)`: every generated file is renamed
      with the stamp inserted before its extension. */
  function EnsureUniqueIdGeneration(d: Dirs, listing: seq<string>, uid: string): (r: Dirs)
    requires Lists(listing, d.generated)
    ensures forall t :: t != Generated ==> Files(r, t) == Files(d, t)
    ensures r.tracker == d.tracker
  {
    d.(generated := RenameEach(d.generated, listing, uid))
  }

  /** After the first rename, the rest of the listing still meets the
      conditions of `RenameEachGeneral`. */
  lemma RenameStep(fs: set<string>, listing: seq<string>, uid: string)
    requires '.' !in uid
    requires listing != [] && Distinct(listing)
    requires forall i :: 0 <= i < |listing| ==> listing[i] in fs
    requires forall i :: 0 <= i < |listing| ==> Stamped(listing[i], uid) !in fs
    ensures Distinct(listing[1..])
    ensures forall i :: 0 <= i < |listing| - 1 ==>
      && listing[1..][i] in fs - {listing[0]} + {Stamped(listing[0], uid)}
      && Stamped(listing[1..][i], uid) !in fs - {listing[0]} + {Stamped(listing[0], uid)}
  {
    var x := listing[0];
    var rest := listing[1..];
    forall i | 0 <= i < |rest|
      ensures rest[i] in fs - {x} + {Stamped(x, uid)} && Stamped(rest[i], uid) !in fs - {x} + {Stamped(x, uid)}
    {
      assert rest[i] == listing[i + 1] && listing[0] != listing[i + 1];
      if Stamped(rest[i], uid) == Stamped(x, uid) {
        StampedInjective(rest[i], x, uid);
      }
    }
    forall i, j | 0 <= i < j < |rest| ensures rest[i] != rest[j] {
      assert rest[i] == listing[i + 1] && rest[j] == listing[j + 1];
    }
  }

  lemma {:induction false} RenameEachGeneral(fs: set<string>, listing: seq<string>, uid: string)
    requires '.' !in uid
    requires Distinct(listing)
    requires forall i :: 0 <= i < |listing| ==> listing[i] in fs
    requires forall i :: 0 <= i < |listing| ==> Stamped(listing[i], uid) !in fs
    ensures RenameEach(fs, listing, uid) == fs - Elems(listing) + StampedAll(listing, uid)
    ensures |StampedAll(listing, uid)| == |listing|
    decreases |listing|
  {
    if listing != [] {
      var x := listing[0];
      var rest := listing[1..];
      RenameStep(fs, listing, uid);
      RenameEachGeneral(fs - {x} + {Stamped(x, uid)}, rest, uid);
      ElemsCons(listing);
      assert x !in Elems(rest);
      StampedAllMember(rest, uid, x);
    }
  }

  /** A name outside a listing stamps to something no listed name stamps to. */
  lemma {:induction false} StampedAllMember(listing: seq<string>, uid: string, x: string)
    requires '.' !in uid
    requires x !in listing
    ensures Stamped(x, uid) !in StampedAll(listing, uid)
    decreases |listing|
  {
    if listing != [] {
      if Stamped(x, uid) == Stamped(listing[0], uid) {
        StampedInjective(x, listing[0], uid);
      }
      StampedAllMember(listing[1..], uid, x);
    }
  }

  /** When no stamped name is already taken, stamping renames every generated
      file and keeps the file count. */
  lemma UniqueIdKeepsCount(d: Dirs, listing: seq<string>, uid: string)
    requires Lists(listing, d.generated)
    requires '.' !in uid
    requires forall f :: f in d.generated ==> Stamped(f, uid) !in d.generated
    ensures EnsureUniqueIdGeneration(d, listing, uid).generated == StampedAll(listing, uid)
    ensures |EnsureUniqueIdGeneration(d, listing, uid).generated| == |d.generated|
  {
    RenameEachGeneral(d.generated, listing, uid);
    ListingSize(listing, d.generated);
  }

  /** When a stamped name is already taken, POSIX `os.rename` overwrites it and a
      file is lost: `a.png` stamped with `7` replaces an existing `a_7.png`. */
  lemma StampCollisionLosesFile()
    ensures |RenameEach({"a.png", "a_7.png"}, ["a.png", "a_7.png"], "7")| == 1
  {
    var a, b := "a.png", "a_7.png";
    LastDotAt(a, 1);
    assert a[..1] == "a" && a[1..] == ".png";
    assert a[..1][0] == 'a';
    assert SplitExt(a) == ("a", ".png");
    assert Stamped("a.png", "7") == "a_7.png";
    LastDotAt(b, 3);
    assert b[..3] == "a_7" && b[3..] == ".png";
    assert b[..3][0] == 'a';
    assert SplitExt(b) == ("a_7", ".png");
    assert Stamped("a_7.png", "7") == "a_7_7.png";
    var fs1 := {"a.png", "a_7.png"} - {a} + {"a_7.png"};
    assert fs1 == {"a_7.png"};
    assert RenameEach({"a.png", "a_7.png"}, ["a.png", "a_7.png"], "7") == RenameEach(fs1, ["a_7.png"], "7");
    assert RenameEach(fs1, ["a_7.png"], "7") == RenameEach({"a_7_7.png"}, [], "7");
  }

  // ---------------------------------------------------------------------
  // Properties across operations

  /** Every `move_*` function treats a lone string as a one-name list. */
  lemma LoneNameIsList(d: Dirs, x: string, reason: string)
    ensures MoveGeneratedDiscard(d, One(x), reason) == MoveGeneratedDiscard(d, Many([x]), reason)
    ensures MoveCheckingDiscard(d, One(x), reason) == MoveCheckingDiscard(d, Many([x]), reason)
    ensures MoveLabelingDiscard(d, One(x), reason) == MoveLabelingDiscard(d, Many([x]), reason)
    ensures MoveGeneratedChecking(d, One(x)) == MoveGeneratedChecking(d, Many([x]))
    ensures MoveGeneratedLabeling(d, One(x)) == MoveGeneratedLabeling(d, Many([x]))
    ensures MoveCheckingLabeling(d, One(x)) == MoveCheckingLabeling(d, Many([x]))
    ensures MoveDiscardedLabeling(d, One(x)) == MoveDiscardedLabeling(d, Many([x]))
    ensures MoveLabelingDataset(d, One(x)) == MoveLabelingDataset(d, Many([x]))
  {
  }

  /** The default reasons: an automatic discard of a generated file writes
      `name<TAB>Automatic checking`, a manual one from checking or labeling
      `name<TAB>Manual decision`. */
  lemma DefaultReasons(d: Dirs, x: string)
    ensures x in d.generated ==>
      && MoveGeneratedDiscard(d, One(x)).Moved?
      && MoveGeneratedDiscard(d, One(x)).dirs.tracker == d.tracker + [x + "\tAutomatic checking"]
    ensures x in d.checking ==>
      && MoveCheckingDiscard(d, One(x)).Moved?
      && MoveCheckingDiscard(d, One(x)).dirs.tracker == d.tracker + [x + "\tManual decision"]
    ensures x in d.labeling ==>
      && MoveLabelingDiscard(d, One(x)).Moved?
      && MoveLabelingDiscard(d, One(x)).dirs.tracker == d.tracker + [x + "\tManual decision"]
  {
    assert TrackerLine(x, DefaultAutomatic) == x + "\tAutomatic checking";
    assert TrackerLine(x, DefaultManual) == x + "\tManual decision";
    assert LinesFor(DiscardFor(DefaultAutomatic), [x]) == [TrackerLine(x, DefaultAutomatic)];
    assert LinesFor(DiscardFor(DefaultManual), [x]) == [TrackerLine(x, DefaultManual)];
    if x in d.generated {
      MoveEachEffect(d, Generated, DiscardFor(DefaultAutomatic), [x]);
    }
    if x in d.checking {
      MoveEachEffect(d, Checking, DiscardFor(DefaultManual), [x]);
    }
    if x in d.labeling {
      MoveEachEffect(d, Labeling, DiscardFor(DefaultManual), [x]);
    }
  }

  /** Clearing the discarded directory a second time changes nothing: the
      dot-files left behind are not matched and the tracker is already empty. */
  lemma DeleteAllDiscardedTwice(d: Dirs)
    ensures DeleteAllDiscarded(DeleteAllDiscarded(d)) == DeleteAllDiscarded(d)
  {
    var d1 := DeleteAllDiscarded(d);
    assert Visible(d1.discarded) == {};
    assert d1.discarded - Visible(d1.discarded) == d1.discarded;
  }

  /** Deleting a discarded file a second time changes nothing. */
  lemma DeleteSingleDiscardedTwice(d: Dirs, name: string)
    ensures DeleteSingleDiscarded(DeleteSingleDiscarded(d, name), name) == DeleteSingleDiscarded(d, name)
  {
    DropNamedTwice(d.tracker, [name]);
  }

  /** Taking a discarded file back for labeling drops its tracker line and
      keeps every other line in order. */
  lemma DiscardThenRestore(d: Dirs, x: string, reason: string)
    requires x in d.generated && x !in d.discarded
    requires '\t' !in x
    ensures MoveGeneratedDiscard(d, One(x), reason).Moved?
    ensures MoveDiscardedLabeling(MoveGeneratedDiscard(d, One(x), reason).dirs, One(x)).Moved?
    ensures MoveDiscardedLabeling(MoveGeneratedDiscard(d, One(x), reason).dirs, One(x)).dirs.tracker
      == DropNamed(d.tracker, [x])
    ensures MoveDiscardedLabeling(MoveGeneratedDiscard(d, One(x), reason).dirs, One(x)).dirs.discarded == d.discarded
    ensures MoveDiscardedLabeling(MoveGeneratedDiscard(d, One(x), reason).dirs, One(x)).dirs.generated == d.generated - {x}
  {
    MoveEachEffect(d, Generated, DiscardFor(reason), [x]);
    var d1 := MoveGeneratedDiscard(d, One(x), reason).dirs;
    assert LinesFor(DiscardFor(reason), [x]) == [TrackerLine(x, reason)];
    assert d1.tracker == d.tracker + [TrackerLine(x, reason)];
    MoveEachEffect(d1, Discarded, MoveTo(Labeling), [x]);
    DropNamedAppend(d.tracker, [TrackerLine(x, reason)], [x]);
    FirstFieldOfLine(x, reason);
    assert DropNamed([TrackerLine(x, reason)], [x]) == [];
  }
}

=== FILE: projects.dfy ===
/** The project registry of the project-management screen: a list of project
    records (name, folder path, active flag), the project marked active when
    the screen was opened, and the one active now. Dialog answers are plain
    parameters; folder creation, renaming and deletion, timestamps and the
    JSON file are not modelled. */
module Projects {
  import opened Wrappers

  /** A project record. `id` stands for the identity of the dict object the
      running program holds; the current/initial tracking refers to records
      by identity. It is not part of projects.json. */
  datatype Project = Project(id: nat, name: string, path: string, isActive: bool)

  /** A record as projects.json holds it (a missing "is_active" reads as false). */
  datatype Stored = Stored(name: string, path: string, isActive: bool)

  datatype Registry = Registry(
    projects: seq<Project>,
    current: Option<nat>,
    initial: Option<nat>,
    nextId: nat)

  /** Why a request changed nothing. */
  datatype Rejection = Cancelled | InvalidName | AlreadyExists

  datatype Change = Applied(reg: Registry) | Rejected(why: Rejection)

  // ---------------------------------------------------------------------
  // Names

  /** The characters of the pattern `[\/:*?"<>|]`; inside the raw string the
      backslash only escapes the slash, so a backslash itself is allowed. */
  const Forbidden: set<char> := {'/', ':', '*', '?', '"', '<', '>', '|'}

  /** Whether some character of the name is one of the forbidden ones. */
  function SearchForbidden(s: string): (found: bool)
    ensures found <==> exists i :: 0 <= i < |s| && s[i] in Forbidden
    decreases |s|
  {
    if s == [] then false
    else if s[0] in Forbidden then true
    else
      var rest := SearchForbidden(s[1..]);
      assert rest <==> exists i :: 1 <= i < |s| && s[i] in Forbidden by {
        if rest {
          var j :| 0 <= j < |s[1..]| && s[1..][j] in Forbidden;
          assert s[j + 1] in Forbidden;
        }
      }
      rest
  }

  /** `is_valid_project_name`: false exactly when the name holds a forbidden
      character. */
  function IsValidName(name: string): (ok: bool)
    ensures ok <==> forall i :: 0 <= i < |name| ==> name[i] !in Forbidden
  {
    !SearchForbidden(name)
  }

  /** The folder of a project: its name under the `projects` directory. */
  function ProjectPath(name: string): (p: string)
    ensures |p| == |name| + 9 && p[..9] == "projects/" && p[9..] == name
  {
    "projects/" + name
  }

  predicate NameTaken(ps: seq<Project>, name: string)
  {
    exists i :: 0 <= i < |ps| && ps[i].name == name
  }

  // ---------------------------------------------------------------------
  // Registry invariants

  predicate UniqueNames(ps: seq<Project>)
  {
    forall i, j :: 0 <= i < j < |ps| ==> ps[i].name != ps[j].name
  }

  predicate UniqueIds(ps: seq<Project>)
  {
    forall i, j :: 0 <= i < j < |ps| ==> ps[i].id != ps[j].id
  }

  predicate AtMostOneActive(ps: seq<Project>)
  {
    forall i, j :: 0 <= i < j < |ps| ==> !(ps[i].isActive && ps[j].isActive)
  }

  /** The active project, when there is one, is the one recorded as current. */
  predicate TracksActive(r: Registry)
  {
    forall i :: 0 <= i < |r.projects| && r.projects[i].isActive ==> r.current == Some(r.projects[i].id)
  }

  predicate WellFormed(r: Registry)
  {
    && UniqueNames(r.projects)
    && UniqueIds(r.projects)
    && (forall i :: 0 <= i < |r.projects| ==> r.projects[i].id < r.nextId)
    && AtMostOneActive(r.projects)
    && TracksActive(r)
  }

  // ---------------------------------------------------------------------
  // Loading

  /** The position of the first active project, if any. */
  function FirstActive(ps: seq<Project>): (k: Option<nat>)
    ensures k.None? <==> forall i :: 0 <= i < |ps| ==> !ps[i].isActive
    ensures k.Some? ==>
      && k.value < |ps| && ps[k.value].isActive
      && forall j :: 0 <= j < k.value ==> !ps[j].isActive
    decreases |ps|
  {
    if ps == [] then None
    else if ps[0].isActive then Some(0)
    else match FirstActive(ps[1..])
      case None => None
      case Some(k) => Some(k + 1)
  }

  /** `load_projects`: the records of projects.json (none when the file does
      not exist yet); the current and the initial project are both the first
      record marked active, or none. */
  function LoadProjects(stored: seq<Stored>): (r: Registry)
    ensures |r.projects| == |stored|
    ensures forall i :: 0 <= i < |stored| ==>
      r.projects[i].name == stored[i].name && r.projects[i].path == stored[i].path
      && r.projects[i].isActive == stored[i].isActive
    ensures r.initial == r.current
    ensures r.current.None? <==> forall i :: 0 <= i < |stored| ==> !stored[i].isActive
    ensures r.current.Some? ==>
      exists k :: 0 <= k < |stored| && stored[k].isActive && r.current == Some(r.projects[k].id)
        && forall j :: 0 <= j < k ==> !stored[j].isActive
    ensures UniqueIds(r.projects)
    ensures AtMostOneActive(r.projects) ==> TracksActive(r)
  {
    var ps := seq(|stored|, i requires 0 <= i < |stored| => Project(i, stored[i].name, stored[i].path, stored[i].isActive));
    var cur := match FirstActive(ps) case None => None case Some(k) => Some(ps[k].id);
    Registry(ps, cur, cur, |stored|)
  }

  // ---------------------------------------------------------------------
  // Operations

  /** The projects with only the `k`-th one active. */
  function ActivateOnly(ps: seq<Project>, k: nat): (r: seq<Project>)
    requires k < |ps|
    ensures |r| == |ps|
    ensures forall i :: 0 <= i < |ps| ==>
      r[i].id == ps[i].id && r[i].name == ps[i].name && r[i].path == ps[i].path
    ensures forall i :: 0 <= i < |ps| ==> (r[i].isActive <==> i == k)
  {
    seq(|ps|, i requires 0 <= i < |ps| => ps[i].(isActive := i == k))
  }

  /** `set_active_project(project)` for the `k`-th project: it becomes the
      only active one and the current project. */
  function SetActiveProject(r: Registry, k: nat): (r': Registry)
    requires k < |r.projects|
    ensures |r'.projects| == |r.projects|
    ensures forall i :: 0 <= i < |r.projects| ==>
      r'.projects[i].id == r.projects[i].id && r'.projects[i].name == r.projects[i].name
      && r'.projects[i].path == r.projects[i].path
    ensures r'.projects[k].isActive
    ensures forall i :: 0 <= i < |r.projects| && i != k ==> !r'.projects[i].isActive
    ensures r'.current == Some(r.projects[k].id)
    ensures r'.initial == r.initial && r'.nextId == r.nextId
  {
    r.(projects := ActivateOnly(r.projects, k), current := Some(r.projects[k].id))
  }

  /** `add_new_project` given the dialog's answer: cancelled or empty,
      invalid, and already-used names are rejected; otherwise one inactive
      record with path `projects/<name>` is appended. */
  function AddNewProject(r: Registry, name: string, ok: bool): (c: Change)
    ensures !ok || name == "" ==> c == Rejected(Cancelled)
    ensures ok && name != "" && !IsValidName(name) ==> c == Rejected(InvalidName)
    ensures ok && name != "" && IsValidName(name) && NameTaken(r.projects, name) ==> c == Rejected(AlreadyExists)
    ensures c.Applied? <==> ok && name != "" && IsValidName(name) && !NameTaken(r.projects, name)
    ensures c.Applied? ==>
      && |c.reg.projects| == |r.projects| + 1
      && c.reg.projects[..|r.projects|] == r.projects
      && c.reg.projects[|r.projects|].name == name
      && c.reg.projects[|r.projects|].path == ProjectPath(name)
      && !c.reg.projects[|r.projects|].isActive
      && c.reg.current == r.current && c.reg.initial == r.initial
  {
    if !(ok && name != "") then Rejected(Cancelled)
    else if !IsValidName(name) then Rejected(InvalidName)
    else if NameTaken(r.projects, name) then Rejected(AlreadyExists)
    else
      var p := Project(r.nextId, name, ProjectPath(name), false);
      Applied(r.(projects := r.projects + [p], nextId := r.nextId + 1))
  }

  /** `edit_project_name` for the `k`-th project: a cancelled, empty or
      invalid name, or one any project already has (the project itself
      included), is rejected; otherwise only that project's name and path
      change. */
  function EditProjectName(r: Registry, k: nat, newName: string, ok: bool): (c: Change)
    requires k < |r.projects|
    ensures !ok || newName == "" ==> c == Rejected(Cancelled)
    ensures ok && newName != "" && !IsValidName(newName) ==> c == Rejected(InvalidName)
    ensures c.Applied? <==> ok && newName != "" && IsValidName(newName) && !NameTaken(r.projects, newName)
    ensures ok && newName != "" && IsValidName(newName) && NameTaken(r.projects, newName) ==> c == Rejected(AlreadyExists)
    ensures c.Applied? ==>
      && |c.reg.projects| == |r.projects|
      && c.reg.projects[k] == r.projects[k].(name := newName, path := ProjectPath(newName))
      && (forall i :: 0 <= i < |r.projects| && i != k ==> c.reg.projects[i] == r.projects[i])
      && c.reg.current == r.current && c.reg.initial == r.initial && c.reg.nextId == r.nextId
  {
    if !(ok && newName != "") then Rejected(Cancelled)
    else if !IsValidName(newName) then Rejected(InvalidName)
    else if NameTaken(r.projects, newName) then Rejected(AlreadyExists)
    else
      var p := r.projects[k].(name := newName, path := ProjectPath(newName));
      Applied(r.(projects := r.projects[k := p]))
  }

  /** The projects whose name differs from `name`, in their original order. */
  function WithoutName(ps: seq<Project>, name: string): (r: seq<Project>)
    ensures |r| <= |ps|
    ensures forall p :: p in r <==> p in ps && p.name != name
    decreases |ps|
  {
    if ps == [] then []
    else
      assert ps == [ps[0]] + ps[1..];
      (if ps[0].name == name then [] else [ps[0]]) + WithoutName(ps[1..], name)
  }

  /** `delete_project` for the `k`-th project, once confirmed: every project
      with its name goes; when it was the active one and others remain, the
      last remaining project becomes the only active one. */
  function DeleteProject(r: Registry, k: nat, confirmed: bool): (c: Change)
    requires k < |r.projects|
    ensures c.Applied? <==> confirmed
    ensures c.Applied? ==> forall i :: 0 <= i < |c.reg.projects| ==> c.reg.projects[i].name != r.projects[k].name
    ensures c.Applied? ==> |c.reg.projects| == |WithoutName(r.projects, r.projects[k].name)|
    ensures c.Applied? && !r.projects[k].isActive ==>
      c.reg.projects == WithoutName(r.projects, r.projects[k].name) && c.reg.current == r.current
    ensures c.Applied? && r.projects[k].isActive && |c.reg.projects| > 0 ==>
      var n := |c.reg.projects|;
      && (forall i :: 0 <= i < n ==>
            c.reg.projects[i] == WithoutName(r.projects, r.projects[k].name)[i].(isActive := i == n - 1))
      && c.reg.projects[n - 1].isActive
      && (forall i :: 0 <= i < n - 1 ==> !c.reg.projects[i].isActive)
      && c.reg.current == Some(c.reg.projects[n - 1].id)
    ensures c.Applied? ==> c.reg.initial == r.initial && c.reg.nextId == r.nextId
  {
    if !confirmed then Rejected(Cancelled)
    else
      var target := r.projects[k];
      var rest := WithoutName(r.projects, target.name);
      if target.isActive && |rest| > 0 then Applied(SetActiveProject(r.(projects := rest), |rest| - 1))
      else Applied(r.(projects := rest))
  }

  /** `return_to_main`: `project_changed` is emitted exactly when the current
      project is not the one recorded when the screen opened, and the current
      one is recorded from then on. */
  datatype Back = Back(reg: Registry, emitted: bool)

  function ReturnToMain(r: Registry): (b: Back)
    ensures b.emitted <==> r.initial != r.current
    ensures b.reg.initial == b.reg.current == r.current
    ensures b.reg.projects == r.projects && b.reg.nextId == r.nextId
  {
    if r.initial != r.current then Back(r.(initial := r.current), true) else Back(r, false)
  }

  // ---------------------------------------------------------------------
  // Invariants kept by every operation

  /** The filtered list, unfolded one step. */
  lemma WithoutNameCons(ps: seq<Project>, name: string)
    requires ps != []
    ensures WithoutName(ps, name) == (if ps[0].name == name then [] else [ps[0]]) + WithoutName(ps[1..], name)
  {
  }

  /** Filtering distributes over concatenation, so the survivors keep their
      relative order. */
  lemma {:induction false} WithoutNameAppend(a: seq<Project>, b: seq<Project>, name: string)
    ensures WithoutName(a + b, name) == WithoutName(a, name) + WithoutName(b, name)
    decreases |a|
  {
    if a != [] {
      var head := if a[0].name == name then [] else [a[0]];
      assert (a + b)[0] == a[0] && (a + b)[1..] == a[1..] + b;
      assert WithoutName(a + b, name) == head + WithoutName(a[1..] + b, name);
      assert WithoutName(a, name) == head + WithoutName(a[1..], name);
      WithoutNameAppend(a[1..], b, name);
    } else {
      assert a + b == b;
    }
  }

  /** The tail of a registry list keeps each invariant, and every project
      in it differs from the head in name and id and is not active alongside
      it. */
  lemma TailFacts(ps: seq<Project>)
    requires ps != []
    ensures UniqueNames(ps) ==> UniqueNames(ps[1..]) && forall q :: q in ps[1..] ==> q.name != ps[0].name
    ensures UniqueIds(ps) ==> UniqueIds(ps[1..]) && forall q :: q in ps[1..] ==> q.id != ps[0].id
    ensures AtMostOneActive(ps) ==> AtMostOneActive(ps[1..]) && (ps[0].isActive ==> forall q :: q in ps[1..] ==> !q.isActive)
  {
  }

  /** Putting a project in front of a list keeps names distinct when its
      name is new. */
  lemma ConsUniqueNames(x: Project, rt: seq<Project>)
    requires UniqueNames(rt) && forall q :: q in rt ==> q.name != x.name
    ensures UniqueNames([x] + rt)
  {
  }

  lemma ConsUniqueIds(x: Project, rt: seq<Project>)
    requires UniqueIds(rt) && forall q :: q in rt ==> q.id != x.id
    ensures UniqueIds([x] + rt)
  {
  }

  lemma ConsOneActive(x: Project, rt: seq<Project>)
    requires AtMostOneActive(rt) && (x.isActive ==> forall q :: q in rt ==> !q.isActive)
    ensures AtMostOneActive([x] + rt)
  {
  }

  /** Filtering keeps the names distinct. */
  lemma {:induction false} WithoutNameUniqueNames(ps: seq<Project>, name: string)
    requires UniqueNames(ps)
    ensures UniqueNames(WithoutName(ps, name))
    decreases |ps|
  {
    if ps != [] {
      TailFacts(ps);
      WithoutNameUniqueNames(ps[1..], name);
      WithoutNameCons(ps, name);
      if ps[0].name != name {
        ConsUniqueNames(ps[0], WithoutName(ps[1..], name));
      }
    }
  }

  /** Filtering keeps the ids distinct. */
  lemma {:induction false} WithoutNameUniqueIds(ps: seq<Project>, name: string)
    requires UniqueIds(ps)
    ensures UniqueIds(WithoutName(ps, name))
    decreases |ps|
  {
    if ps != [] {
      TailFacts(ps);
      WithoutNameUniqueIds(ps[1..], name);
      WithoutNameCons(ps, name);
      if ps[0].name != name {
        ConsUniqueIds(ps[0], WithoutName(ps[1..], name));
      }
    }
  }

  /** Filtering keeps at most one project active. */
  lemma {:induction false} WithoutNameOneActive(ps: seq<Project>, name: string)
    requires AtMostOneActive(ps)
    ensures AtMostOneActive(WithoutName(ps, name))
    decreases |ps|
  {
    if ps != [] {
      TailFacts(ps);
      WithoutNameOneActive(ps[1..], name);
      WithoutNameCons(ps, name);
      if ps[0].name != name {
        ConsOneActive(ps[0], WithoutName(ps[1..], name));
      }
    }
  }

  lemma SetActiveKeeps(r: Registry, k: nat)
    requires k < |r.projects|
    requires WellFormed(r)
    ensures WellFormed(SetActiveProject(r, k))
  {
  }

  lemma AddNewProjectKeeps(r: Registry, name: string, ok: bool)
    requires WellFormed(r)
    ensures AddNewProject(r, name, ok).Applied? ==> WellFormed(AddNewProject(r, name, ok).reg)
  {
  }

  lemma EditProjectNameKeeps(r: Registry, k: nat, newName: string, ok: bool)
    requires k < |r.projects|
    requires WellFormed(r)
    ensures EditProjectName(r, k, newName, ok).Applied? ==> WellFormed(EditProjectName(r, k, newName, ok).reg)
  {
  }

  /** After the filter of `delete_project`, the registry is well formed: the
      remaining projects keep distinct names and ids, and an active one among
      them is still the current one. */
  lemma {:induction false} FilteredWellFormed(r: Registry, name: string)
    requires WellFormed(r)
    ensures WellFormed(r.(projects := WithoutName(r.projects, name)))
  {
    var rest := WithoutName(r.projects, name);
    WithoutNameUniqueNames(r.projects, name);
    WithoutNameUniqueIds(r.projects, name);
    WithoutNameOneActive(r.projects, name);
    forall i | 0 <= i < |rest| ensures rest[i].id < r.nextId && (rest[i].isActive ==> r.current == Some(rest[i].id)) {
      assert rest[i] in r.projects;
      var j :| 0 <= j < |r.projects| && r.projects[j] == rest[i];
    }
  }

  lemma {:induction false} DeleteProjectKeeps(r: Registry, k: nat, confirmed: bool)
    requires k < |r.projects|
    requires WellFormed(r)
    ensures DeleteProject(r, k, confirmed).Applied? ==> WellFormed(DeleteProject(r, k, confirmed).reg)
  {
    if confirmed {
      var name := r.projects[k].name;
      var filtered := r.(projects := WithoutName(r.projects, name));
      FilteredWellFormed(r, name);
      if r.projects[k].isActive && |filtered.projects| > 0 {
        SetActiveKeeps(filtered, |filtered.projects| - 1);
      }
    }
  }

  lemma ReturnToMainKeeps(r: Registry)
    requires WellFormed(r)
    ensures WellFormed(ReturnToMain(r).reg)
  {
  }

  /** Returning a second time emits nothing. */
  lemma ReturnTwiceEmitsOnce(r: Registry)
    ensures !ReturnToMain(ReturnToMain(r).reg).emitted
  {
  }

  /** A loaded registry with distinct names and at most one active record is
      well formed. */
  lemma LoadedWellFormed(stored: seq<Stored>)
    requires forall i, j :: 0 <= i < j < |stored| ==> stored[i].name != stored[j].name
    requires forall i, j :: 0 <= i < j < |stored| ==> !(stored[i].isActive && stored[j].isActive)
    ensures WellFormed(LoadProjects(stored))
  {
  }

  /** Filtering out the middle one of three names keeps the outer two. */
  lemma MiddleGone(a: Project, b: Project, c: Project)
    requires a.name != b.name && c.name != b.name
    ensures WithoutName([a, b, c], b.name) == [a, c]
  {
    assert [a, b, c] == [a] + [b, c] && [b, c] == [b] + [c];
    WithoutNameAppend([a], [b, c], b.name);
    WithoutNameAppend([b], [c], b.name);
    assert WithoutName([a], b.name) == [a] && WithoutName([c], b.name) == [c];
    assert WithoutName([b], b.name) == [];
  }

  /** Deleting the active middle project of three leaves the other two in
      order and makes the last of them the active, current one. */
  lemma DeleteActiveActivatesLast(r: Registry, a: Project, b: Project, c: Project)
    requires r.projects == [a, b, c]
    requires a.name != b.name && c.name != b.name && b.isActive
    ensures DeleteProject(r, 1, true).Applied?
    ensures DeleteProject(r, 1, true).reg.projects == [a.(isActive := false), c.(isActive := true)]
    ensures DeleteProject(r, 1, true).reg.current == Some(c.id)
  {
    var rest := WithoutName([a, b, c], b.name);
    MiddleGone(a, b, c);
    var d := DeleteProject(r, 1, true);
    assert |d.reg.projects| == 2;
    assert d.reg.projects[0] == rest[0].(isActive := false);
    assert d.reg.projects[1] == rest[1].(isActive := true);
  }

  /** A backslash is an allowed character; a slash is not. */
  lemma BackslashAllowed()
    ensures IsValidName("a\\b")
    ensures !IsValidName("a/b")
  {
  }
}

=== FILE: seqs.dfy ===
/** Sequence helpers shared by the annotation store, the image pipeline and
    the project registry. */
module Seqs {

  /** `list.pop(i)` / `np.delete(_, i, axis)` for an index already checked by the
      caller; an index outside the sequence leaves it as it is. */
  function RemoveAt<T>(s: seq<T>, i: int): (r: seq<T>)
    ensures 0 <= i < |s| ==> |r| == |s| - 1
    ensures 0 <= i < |s| ==> forall k :: 0 <= k < i ==> r[k] == s[k]
    ensures 0 <= i < |s| ==> forall k :: i <= k < |r| ==> r[k] == s[k + 1]
    ensures !(0 <= i < |s|) ==> r == s
  {
    if 0 <= i < |s| then s[..i] + s[i + 1..] else s
  }

  /** Removing the element just appended gives back the original sequence. */
  lemma RemoveAppended<T>(s: seq<T>, x: T)
    ensures RemoveAt(s + [x], |s|) == s
  {
  }

  /** No element occurs twice. */
  predicate Distinct<T(==)>(s: seq<T>)
  {
    forall i, j :: 0 <= i < j < |s| ==> s[i] != s[j]
  }

  /** The elements of a sequence, as a set. */
  function Elems<T>(s: seq<T>): set<T>
  {
    set x | x in s
  }

  /** The elements of a non-empty sequence: its head and those of its tail. */
  lemma ElemsCons<T>(s: seq<T>)
    requires s != []
    ensures Elems(s) == {s[0]} + Elems(s[1..])
  {
  }

  /** A listing of a directory: every element of `fs` exactly once, in some order. */
  predicate Lists<T(==)>(listing: seq<T>, fs: set<T>)
  {
    Distinct(listing) && Elems(listing) == fs
  }

  /** A listing holds exactly as many entries as the set it lists. */
  lemma {:induction false} ListingSize<T>(listing: seq<T>, fs: set<T>)
    requires Lists(listing, fs)
    ensures |listing| == |fs|
    decreases |listing|
  {
    if listing != [] {
      var x := listing[0];
      var rest := listing[1..];
      assert Lists(rest, fs - {x}) by {
        forall y | y in rest ensures y in fs - {x} {
          var j :| 0 <= j < |rest| && rest[j] == y;
          assert listing[j + 1] == y;
        }
        assert Elems(listing) == {x} + Elems(rest);
      }
      ListingSize(rest, fs - {x});
    }
  }
}

=== FILE: wrappers.dfy ===
/** The optional value shared by the annotation store and the project
    registry: an argument left as None, or a project that may be absent. */
module Wrappers {

  datatype Option<T> = None | Some(value: T)
}
